=== FILE: README.md ===
# Image zoom runtime, modelled in Dafny

This project models the client-side runtime of a documentation-site image-zoom
plugin. The runtime does two jobs. First, it finds the content images on a page
and wraps each one in a clickable container; this is the *scan*. Second, it runs a
modal *zoom session*: an overlay and an enlarged copy of the image, opened
by the wrapper and dismissed by a click, the Escape key or navigation.

Two revisions of the runtime are modelled side by side:

- `src/client/index.js` is the current runtime. Its scan skips images that are
  already processed (`data-zoom-processed`), images inside a link, and images
  below 100 px on either axis. It marks and wraps each image, derives the
  wrapper's classes from the image's classes, and tracks the loading state.
  A mutation observer re-runs the scan when images were added. The session has
  an `isTransitioning` guard, locks page scrolling, and honours
  `data-zoom-src` and `srcset`.
- `client.js` is the earlier revision. Its scan skips an image whose parent
  already carries the `zoom-img-wrap` class, or that sits inside a link. It
  has no size filter, and its observer re-scans on every mutation. Its
  session has no transition guard. It takes the overlay background and
  stacking order from the plugin options.

Files:

- `wrappers.dfy`: `Option`.
- `class_names.dfy`: JavaScript's `\s` class, ASCII token whitespace,
  the `replace(/\s+/g, '-wrap ') + '-wrap'` rewrite and `classList.contains`.
- `dom.dfy`: an abstract document, modelled as a forest of nodes with parent
  pointers, a sibling slot and a depth. It provides `closest`, the wrapper
  insertion and the image `load` event.
- `image_scan.dfy`: the current scan and its mutation observer.
- `legacy_scan.dfy`: the earlier scan.
- `zoom_session.dfy`: the current session, as a step function over the
  page. Deferred callbacks are a multiset of pending timers that may fire in
  any order.
- `legacy_session.dfy`: the earlier session.

## Model

| member | source | states |
|---|---|---|
| ClassNames.WrapSuffixTokens | src/client/index.js:45-47 | For a class attribute made of words separated by arbitrary runs of whitespace, the rewrite gives every word exactly one `-wrap`. The runs collapse to single spaces. |
| ClassNames.SingleSpacedSuffixCount | src/client/index.js:46 | A single-space-separated class list becomes the same tokens, each suffixed with `-wrap` once. |
| ClassNames.ReplaceRuns | src/client/index.js:46 | Computes `replace(/\s+/g, '-wrap ')`: each maximal run of JavaScript `\s` characters becomes `-wrap ` and every other character is kept. |
| ClassNames.WrapperClassName | src/client/index.js:39-47 | Computes the wrapper's `className`: `zoom-img-wrap`, followed by a space and the rewritten image classes when the image's class string is non-empty (truthy). |
| ClassNames.LeadingSpaceGivesBareSuffix | src/client/index.js:46 | A class attribute made of any run of whitespace followed by any word list gives the wrapper a bare leading `-wrap` token, because the regex rewrites the leading run too. |
| ClassNames.TrailingSpaceGivesBareSuffix | src/client/index.js:46 | A class attribute made of any word list followed by any run of whitespace gives the wrapper a bare trailing `-wrap` token: `"a "` becomes `"a-wrap -wrap"`. |
| ClassNames.WrapperHasWrapClass | src/client/index.js:39-47 | Whatever the image's classes are, the wrapper's class list contains the token `zoom-img-wrap`, as `classList.contains` would find it. |
| Dom.Reparent | src/client/index.js:49-50 | A fresh `div` takes the image's slot under the image's old parent, and the image becomes its child. The image's own content is unchanged, every other node is unchanged, and the document stays well formed. |
| Dom.ReparentKeepsClosest | src/client/index.js:49-50 | Inserting the wrapper `div` changes no node's `closest(tag)` for any tag other than `div`. |
| Dom.LoadImage | src/client/index.js:53-57 | The `load` event makes the image complete with its natural size. The registered listener removes `loading` from that image's wrapper and changes nothing else on it. The listener map, every other node and the tree's shape are unchanged. |
| ImageScan.Eligible | src/client/index.js:20-32 | The negation of the three skip rules: not marked `'true'`, no `a` element at or above the image, and at least 100 on both natural axes. |
| ImageScan.Mark | src/client/index.js:35 | Sets the processed marker on the image and changes nothing else. |
| ImageScan.Wrap | src/client/index.js:34-58 | Marks the image and puts it under a fresh `div` in its old slot. The `div`'s class string is derived from the image's classes. The wrapper is `loading` exactly when the image is not complete. A `load` listener pointing at the new wrapper is registered exactly then, and every other image's listener is kept. |
| ImageScan.WrapKeepsClosest | src/client/index.js:25 | Wrapping an image changes no node's `closest('a')`, so it cannot change the link rule for any image. |
| ImageScan.WrapStep | src/client/index.js:20-58 | An eligible image ends marked and wrapped, and is no longer eligible. No other node changes, and no other node's eligibility changes. |
| ImageScan.Visit | src/client/index.js:18-58 | One `forEach` iteration: wrap the image when it is eligible, otherwise leave the page as it is. |
| ImageScan.VisitStep | src/client/index.js:18-58 | One `forEach` iteration covers both branches. An eligible image is wrapped; a processed image, one inside a link, or one below 100 px on either axis leaves the page exactly as it was. |
| ImageScan.Scan | src/client/index.js:15-79 | The scan keeps the document well formed, keeps every node, and keeps every image an image. |
| ImageScan.ScanShape | src/client/index.js:15-79 | The scan changes no node's `closest('a')`. The only nodes it adds are fresh, and each is the parent of an eligible match, so nothing is added but wrappers. |
| ImageScan.ScanFrame | src/client/index.js:18-58 | Every node that is not an eligible match comes out of the scan exactly as it went in. Existing `load` listeners are kept, and every listener the scan adds belongs to an eligible match. |
| ImageScan.ScanLeavesNoneEligible | src/client/index.js:18-35 | After a scan, no match is eligible. |
| ImageScan.ScanMarksEligible | src/client/index.js:20-35 | After a scan, a node is marked if and only if it was marked before or was an eligible match. |
| ImageScan.ScanWrapsEligible | src/client/index.js:34-50 | After a scan, every eligible match sits in a node that did not exist before. That node is a `div` carrying the derived class, in the match's old slot under its old parent, and the image is otherwise only marked. The wrapper is `loading` exactly when the image was not complete, and then the image's `load` listener points at it. |
| ImageScan.ScanIneligibleIsIdentity | src/client/index.js:18-32 | A scan in which no match is eligible changes nothing. |
| ImageScan.ScanIdempotent | src/client/index.js:15-50 | Scanning twice is the same as scanning once: no image is wrapped twice. |
| ImageScan.SkippedStayUnmarked | src/client/index.js:24-32 | An image skipped for a link or for its size stays unmarked and in place. |
| ImageScan.LoadedImageWrappedByLaterScan | src/client/index.js:29-58 | Take an image skipped only for its size. Once its `load` event gives it at least 100 px on both axes, the next scan wraps it. |
| ImageScan.HasNewImages | src/client/index.js:192-199 | The observer's test: some mutation added an element node that is an `img` or has an `img` below it. |
| ImageScan.Observe | src/client/index.js:190-204 | The observer callback: re-run the scan when the test holds, otherwise do nothing. |
| ImageScan.WrapperInsertionTriggersObserver | src/client/index.js:190-202 | A wrapper the scan inserts is itself an added element with an `img` below it, so the observer's test fires on the scan's own insertions. |
| ImageScan.ObserverSettles | src/client/index.js:190-204 | After a scan, a re-scan over the same match list changes nothing, whatever mutations are reported. This is the case after the scan's own wrapper insertions. A mutation that brings a new matched image changes the match list, so it is not covered. |
| ImageScan.ObserverChangesOnlyForNewEligibleImages | src/client/index.js:190-204 | The observer changes the page only when the mutations brought an image AND some match was still eligible; otherwise its callback is a no-op. |
| LegacyScan.InWrapper | client.js:15-17 | The already-wrapped check: the image's parent exists and its class list contains the token `zoom-img-wrap`. |
| LegacyScan.Wrappable | client.js:14-22 | The negation of the two skip rules: not in a wrapper and no `a` element at or above the image. |
| LegacyScan.Visit | client.js:13-35 | One iteration: wrap a wrappable image in a plain `zoom-img-wrap` div, otherwise leave the page as it is. |
| LegacyScan.VisitStep | client.js:13-35 | One iteration covers both branches. An image not in a wrapper and not in a link is wrapped in a plain `zoom-img-wrap` div in its slot. Any other image leaves the page unchanged. Afterwards the image is not wrappable. |
| LegacyScan.Scan | client.js:10-37 | The scan keeps the document well formed, keeps every node, and keeps every image an image. |
| LegacyScan.ScanShape | client.js:10-37 | The scan changes no node's `closest('a')`. The only nodes it adds are fresh, and each is the parent of a wrappable match, so nothing is added but wrappers. |
| LegacyScan.ScanFrame | client.js:13-28 | Every node that is not a wrappable match comes out of the scan unchanged. |
| LegacyScan.ScanLeavesNoneWrappable | client.js:13-28 | After a scan, every match is skipped by the parent-class check or the link check. |
| LegacyScan.ScanWrapsAllWrappable | client.js:24-28 | Every wrappable match ends in a fresh `zoom-img-wrap` div in its old slot, with its own content untouched. |
| LegacyScan.ScanUnwrappableIsIdentity | client.js:13-22 | A scan in which no match is wrappable changes nothing. |
| LegacyScan.ScanIdempotent | client.js:121-123 | The observer re-scans on every mutation, and this is harmless: a second scan changes nothing. |
| LegacyScan.TinyImageWrapped | client.js:13-28 | There is no size filter: an icon-sized image outside links and wrappers is wrapped. |
| LegacyScan.SkippedUntouched | client.js:14-22 | An image inside a link, or whose parent carries `zoom-img-wrap`, is left exactly as it was. |
| ZoomSession.ZoomedPair | src/client/index.js:96-109 | The zoomed image's source is `data-zoom-src` when it is present and non-empty, otherwise `src`. The `srcset` is copied. The `alt` falls back to `Zoomed image`. The pair starts inactive. |
| ZoomSession.Close | src/client/index.js:157-184 | With no session, or during a transition, closing is a no-op. Otherwise it starts a transition, deactivates the pair and keeps every other field of it, unlocks scrolling, drops the session's key handler and schedules the pair's removal. |
| ZoomSession.Open | src/client/index.js:81-155 | During a transition, opening is a no-op. Otherwise it first closes the current session: the old pair is deactivated with every other field kept, its handler dropped and its removal scheduled. It then adds a fresh pair built from the image as the only new element pair and makes it the session. It locks scrolling, registers exactly the new handler and schedules exactly the new frame. Every other pair is unchanged and the id counter advances by one. |
| ZoomSession.FireTimer | src/client/index.js:121-128 | A fired timer leaves the pending set once. The animation frame activates only its own pair and adds the 300 ms transition timer. That timer clears `isTransitioning` and touches no pair. The removal timer (lines 177-181) removes only its pair and also clears the flag. A timer that is not pending does nothing. |
| ZoomSession.DocumentKeyDown | src/client/index.js:143-148 | The document's `keydown` listeners: Escape runs `closeZoom` when a handler is registered; any other key does nothing. |
| ZoomSession.Step | src/client/index.js:61-216 | One event: the wrapper's click and Enter/Space open a session unless a transition runs, and stop there; any other key pressed on the wrapper bubbles to the document's `keydown` listeners; a click on a pair closes unless a transition runs; Escape goes to the key listeners; navigation closes; a timer fires. |
| ZoomSession.CloseInv | src/client/index.js:157-184 | Closing keeps the session invariant. |
| ZoomSession.OpenInv | src/client/index.js:81-155 | Opening keeps the session invariant: fresh ids, the session's pair is present and not scheduled for removal, exactly one key handler while a session is open, scrolling locked exactly while open, and no pair leaked. |
| ZoomSession.FireInv | src/client/index.js:121-181 | Every deferred callback keeps the session invariant, whichever order they fire in. |
| ZoomSession.StepInv | src/client/index.js:61-216 | Every event keeps the session invariant. The events are the wrapper's click and Enter/Space, a click on the overlay or image, Escape, navigation and timers. |
| ZoomSession.Run | src/client/index.js:10-13 | Any sequence of events from a page that satisfies the invariant ends in a page that satisfies it. |
| ZoomSession.CloseIdempotent | src/client/index.js:157-158 | A second `closeZoom` straight after the first does nothing. |
| ZoomSession.TransitionSwallowsEvents | src/client/index.js:131-158 | While a transition runs, every activation and every dismissal is dropped. |
| ZoomSession.DoubleActivationOpensOnce | src/client/index.js:61-87 | A second activation inside the opening window is dropped. The first image's pair is the session. |
| ZoomSession.OpenEscapeRoundTrip | src/client/index.js:81-184 | Start from an idle page and run: open, frame, transition timer, Escape, removal timer. The pair is active and scrolling is locked in between, and the page ends idle again. |
| ZoomSession.OldAndNewPairsCoexist | src/client/index.js:81-116 | Activating another image while a session is open leaves two pairs in the document: the old one awaiting removal and the new one as the session. |
| ZoomSession.RemovalTimerEndsNewOpening | src/client/index.js:177-181 | Open a second session, then let the new frame fire and then the old pair's removal timer. The removal timer clears `isTransitioning` while the new transition timer is still pending, so an Escape is accepted during the new session's opening transition. |
| LegacySession.ZoomedZIndex | client.js:57 | The zoomed image's z-index is the option plus one. When the option is unset or 0 it is 1000. |
| LegacySession.NewPair | client.js:43-57 | The overlay gets an inline background and z-index only when those options are truthy. The zoomed image uses the clicked image's `src`. |
| LegacySession.Close | client.js:94-115 | With no session, closing is a no-op. Otherwise it deactivates the pair and keeps every other field of it, drops its Escape handler and schedules its removal. |
| LegacySession.Open | client.js:39-92 | Opening always closes the current session first: the old pair is deactivated with every other field kept, its handler dropped and its removal scheduled. It then adds a fresh pair built from the options as the session, registers exactly its handler and schedules exactly its frame. Every other pair is unchanged and the id counter advances by one. |
| LegacySession.FireTimer | client.js:66-112 | A fired timer leaves the pending set once. The frame activates only its own pair, and the removal timer removes only its own pair. A timer that is not pending does nothing. |
| LegacySession.Step | client.js:30-132 | One event under the plugin options: a click on a wrapped image opens, Escape closes when a handler is registered, a click on a pair closes, navigation closes, a timer fires. |
| LegacySession.CloseInv | client.js:94-115 | Closing keeps the session invariant. |
| LegacySession.OpenInv | client.js:39-92 | Opening keeps the session invariant: fresh ids, exactly the session's handler registered, and no pair leaked. |
| LegacySession.FireInv | client.js:66-112 | Every timer keeps the session invariant. |
| LegacySession.StepInv | client.js:30-132 | Every event keeps the session invariant. |
| LegacySession.Run | client.js:6-8 | Any sequence of events keeps the session invariant. |
| LegacySession.EscapeAndClickAgree | client.js:73-88 | With a session open, Escape and a click on the overlay or zoomed image both act as `closeZoom`, and no handler is left. |
| LegacySession.CloseIdempotent | client.js:94-95 | A second `closeZoom` straight after the first does nothing. |
| LegacySession.FrameAfterCloseReactivates | client.js:66-115 | With no transition guard, Escape can come before the opening frame. The frame then makes the closed pair `active` again until its removal timer fires. |

## Behaviour worth knowing

- An image is skipped when EITHER natural dimension is below 100 (src/client/index.js:30).
- Nothing re-checks an image when it finishes loading. The `load` listener only removes `loading` from the wrapper (src/client/index.js:53-57). An image too small when scanned stays unmarked, so only a later scan can wrap it (`ImageScan.LoadedImageWrappedByLaterScan`).
- Opening while a session is open closes it, but its elements stay in the document until its removal timer fires (src/client/index.js:85, 177-181). The old and new pairs coexist until then (`ZoomSession.OldAndNewPairsCoexist`).
- The old pair's removal timer clears `isTransitioning` while the new session is still in its opening transition (src/client/index.js:180; `ZoomSession.RemovalTimerEndsNewOpening`).
- Navigation only calls `closeZoom` (src/client/index.js:212-217, client.js:131-132). It does not re-scan.
- In the earlier revision, a late animation frame can make a closed pair active again (client.js:67-70; `LegacySession.FrameAfterCloseReactivates`).

## Left out

- Start-up and teardown are not modelled, because they only schedule the modelled operations. This covers the `canUseDOM` guard, the `DOMContentLoaded` wait and the 100 ms start delay, reading `__IMAGE_ZOOM_OPTIONS__`, and the `module.hot` disposal (observer disconnect, listener removal).
- `querySelectorAll(options.selector)`: selector matching is not modelled. The matches are an input list of attached `img` elements, taken in document order.
- Focus, `tabIndex`, `role`/`aria-*` attributes, `preventDefault`/`stopPropagation` and all CSS are not modelled, because they have no effect on the state the model tracks.
- Timer durations (300 ms) and animation-frame timing are not modelled. Pending callbacks may fire in any order, which includes every order the browser could produce.
- `src/index.js`, `index.js` and `scripts/build.js` (plugin registration, style injection, build tooling) are not part of this model.
- The wrapper's `loading` class is a boolean flag beside the class string, not a `DOMTokenList` edit of it.
- ImageScan.Wrap: for an image that is not complete, `classList.add('loading')` and the later `classList.remove('loading')` re-serialise the wrapper's class attribute as a de-duplicated token set. The model keeps the rewritten string as `className` assigned it. For image classes `"a a"` the page shows `zoom-img-wrap a-wrap loading`, while the model keeps `zoom-img-wrap a-wrap a-wrap` and sets the flag. For image class `"zoom-img"` the page shows `zoom-img-wrap loading`, while the model keeps `zoom-img-wrap zoom-img-wrap`. For complete images, and in the earlier revision, the string is exactly the assigned one.
- Each `keydown` handler runs `closeZoom` on Escape. The model runs it once; `ZoomSession.CloseIdempotent` and the invariant (exactly one handler) show that this is the same.
- `ImageScan.HasNewImages`: an added node that is no longer in the document is treated as bringing no image.
- `LegacySession.ZoomedZIndex`: `zIndex` is modelled as a number. A string option would concatenate in JavaScript (`"5" + 1`).
- The `margin` option is not modelled, because neither revision reads it.
- ZoomSession.Step: a click on a pair is honoured whether or not the pair is active. The style sheet makes an inactive pair click-through (`pointer-events: none`), so the model admits clicks the page would not deliver; such a click reaches `closeZoom`, which is a no-op unless a session is open.
- The session's overlay and zoomed image are not part of the scanned page. `ZoomSession`/`LegacySession` and `ImageScan`/`LegacyScan` never share a `Doc`, so the model cannot show how they interact. In the current revision, `openZoom` appends an `img` to `document.body` (src/client/index.js:112-113), which is a mutation that brings an image and so triggers a re-scan (src/client/index.js:190-202). The earlier revision re-scans on every mutation (client.js:60-61, 121-123). If the selector matched that body-level copy, the scan would wrap it, and a later `remove()` would leave an empty wrapper behind; the earlier revision would also give it an `openZoom` click listener (client.js:31). The default selector `.markdown img` does not match it. The size rule gives no protection, since a freshly created copy that has not finished loading is never skipped for its size.
- `openZoom` on an element that is no longer attached is not modelled. The session model does not track the page's images, only the attributes read from the clicked one.

=== FILE: class_names.dfy ===
/**
 * Class-attribute strings: the whitespace classes that JavaScript's regular
 * expressions and `DOMTokenList` use, the `-wrap` suffix rewrite that the
 * wrapper installer applies to an image's classes, and token membership as
 * `classList.contains` decides it.
 */
module ClassNames {

  /** The class every zoom wrapper carries. */
  const WrapClass: string := "zoom-img-wrap"

  /** The suffix appended to each of the image's class tokens. */
  const Suffix: string := "-wrap"

  /** The characters matched by `\s` in a JavaScript regular expression. */
  predicate IsJsSpace(c: char) {
    || c == ' ' || c == '\t' || c == '\n' || c == '\r'
    || c == '\U{000B}' || c == '\U{000C}'
    || c == '\U{00A0}' || c == '\U{1680}'
    || ('\U{2000}' <= c <= '\U{200A}')
    || c == '\U{2028}' || c == '\U{2029}' || c == '\U{202F}'
    || c == '\U{205F}' || c == '\U{3000}' || c == '\U{FEFF}'
  }

  /** The ASCII whitespace that separates tokens of a class attribute. */
  predicate IsAsciiSpace(c: char) {
    c == ' ' || c == '\t' || c == '\n' || c == '\U{000C}' || c == '\r'
  }

  /** A class token as the suffix rewrite sees it: non-empty, no `\s` character. */
  predicate IsWord(t: string) {
    |t| > 0 && forall i :: 0 <= i < |t| ==> !IsJsSpace(t[i])
  }

  /** A non-empty run of `\s` characters. */
  predicate IsGap(g: string) {
    |g| > 0 && forall i :: 0 <= i < |g| ==> IsJsSpace(g[i])
  }

  /** Drops the leading run of `\s` characters. */
  function DropSpaces(s: string): (r: string)
    ensures |r| <= |s|
    ensures s != [] && IsJsSpace(s[0]) ==> |r| < |s|
    ensures r == [] || !IsJsSpace(r[0])
  {
    if s != [] && IsJsSpace(s[0]) then DropSpaces(s[1..]) else s
  }

  /** `s.replace(/\s+/g, '-wrap ')`: every maximal run of `\s` becomes `"-wrap "`. */
  function ReplaceRuns(s: string): string
    decreases |s|
  {
    if s == [] then []
    else if IsJsSpace(s[0]) then Suffix + " " + ReplaceRuns(DropSpaces(s))
    else [s[0]] + ReplaceRuns(s[1..])
  }

  /** The rewrite applied to a non-empty class attribute: runs replaced, then `-wrap` appended. */
  function WrapSuffix(s: string): string {
    ReplaceRuns(s) + Suffix
  }

  /** The wrapper's `className`: `zoom-img-wrap`, then the image's rewritten classes when it has any. */
  function WrapperClassName(imageClasses: string): string {
    if imageClasses != [] then WrapClass + " " + WrapSuffix(imageClasses) else WrapClass
  }

  /** Tokens separated by exactly the given gaps: `ts[0] + gaps[0] + ts[1] + ... + ts[n-1]`. */
  function Interleave(ts: seq<string>, gaps: seq<string>): string
    requires |ts| > 0 && |gaps| == |ts| - 1
  {
    if |ts| == 1 then ts[0] else ts[0] + (gaps[0] + Interleave(ts[1..], gaps[1..]))
  }

  /** Tokens separated by single spaces. */
  function JoinSpaced(ts: seq<string>): string
    requires |ts| > 0
  {
    if |ts| == 1 then ts[0] else ts[0] + (" " + JoinSpaced(ts[1..]))
  }

  /** Every token with `-wrap` appended. */
  function Suffixed(ts: seq<string>): (r: seq<string>)
    ensures |r| == |ts|
    ensures forall i :: 0 <= i < |ts| ==> r[i] == ts[i] + Suffix
  {
    if ts == [] then [] else [ts[0] + Suffix] + Suffixed(ts[1..])
  }

  /** `classList.contains(tok)`: `tok` occurs in `s` delimited by ASCII whitespace or the ends. */
  predicate ContainsToken(s: string, tok: string) {
    exists i, j | 0 <= i <= j <= |s| ::
      && s[i..j] == tok
      && (i == 0 || IsAsciiSpace(s[i - 1]))
      && (j == |s| || IsAsciiSpace(s[j]))
  }

  /** A word passes through the rewrite unchanged. */
  lemma {:induction false} ReplaceRunsWord(t: string, rest: string)
    requires forall i :: 0 <= i < |t| ==> !IsJsSpace(t[i])
    ensures ReplaceRuns(t + rest) == t + ReplaceRuns(rest)
    decreases |t|
  {
    if t != [] {
      var s := t + rest;
      assert s[0] == t[0] && !IsJsSpace(s[0]);
      assert s[1..] == t[1..] + rest;
      ReplaceRunsWord(t[1..], rest);
      calc {
        ReplaceRuns(s);
        [t[0]] + ReplaceRuns(t[1..] + rest);
        [t[0]] + (t[1..] + ReplaceRuns(rest));
        { assert [t[0]] + t[1..] == t; }
        t + ReplaceRuns(rest);
      }
    } else {
      assert t + rest == rest;
    }
  }

  /** A whole gap, however long, is consumed by one `-wrap ` replacement. */
  lemma {:induction false} DropSpacesGap(g: string, rest: string)
    requires forall i :: 0 <= i < |g| ==> IsJsSpace(g[i])
    requires rest == [] || !IsJsSpace(rest[0])
    ensures DropSpaces(g + rest) == rest
    decreases |g|
  {
    if g != [] {
      assert (g + rest)[1..] == g[1..] + rest;
      DropSpacesGap(g[1..], rest);
    } else {
      assert g + rest == rest;
    }
  }

  /**
   * The suffix rewrite on a class list made of words and arbitrary gaps:
   * each word gets exactly one `-wrap`, and the gaps collapse to single spaces.
   */
  lemma {:induction false} WrapSuffixTokens(ts: seq<string>, gaps: seq<string>)
    requires |ts| > 0 && |gaps| == |ts| - 1
    requires forall k :: 0 <= k < |ts| ==> IsWord(ts[k])
    requires forall k :: 0 <= k < |gaps| ==> IsGap(gaps[k])
    ensures WrapSuffix(Interleave(ts, gaps)) == JoinSpaced(Suffixed(ts))
    decreases |ts|
  {
    if |ts| == 1 {
      assert ts[0] == ts[0] + [];
      ReplaceRunsWord(ts[0], []);
    } else {
      var rest := Interleave(ts[1..], gaps[1..]);
      assert IsWord(ts[1]);
      InterleaveHead(ts[1..], gaps[1..]);
      WrapSuffixTokens(ts[1..], gaps[1..]);
      WordGapStep(ts[0], gaps[0], rest);
      var sfx := Suffixed(ts);
      assert sfx[1..] == Suffixed(ts[1..]);
    }
  }

  /** One word and the gap after it become the word, `-wrap` and one space. */
  lemma WordGapStep(t: string, g: string, rest: string)
    requires IsWord(t) && IsGap(g)
    requires rest == [] || !IsJsSpace(rest[0])
    ensures WrapSuffix(t + (g + rest)) == (t + Suffix) + (" " + WrapSuffix(rest))
  {
    GapThenWord(g, rest);
    ReplaceRunsWord(t, g + rest);
    Regroup(t, Suffix + " ", ReplaceRuns(rest), Suffix);
  }

  /** Concatenation regrouped. */
  lemma Regroup(a: string, b: string, c: string, e: string)
    requires b == e + " "
    ensures a + (b + c) + e == (a + e) + (" " + (c + e))
  {
  }

  /** A gap followed by a word-initial remainder is replaced by a single `-wrap `. */
  lemma GapThenWord(g: string, rest: string)
    requires IsGap(g)
    requires rest == [] || !IsJsSpace(rest[0])
    ensures ReplaceRuns(g + rest) == Suffix + " " + ReplaceRuns(rest)
  {
    assert (g + rest)[0] == g[0];
    DropSpacesGap(g, rest);
  }

  /** An interleaving starts with the first character of its first token. */
  lemma {:induction false} InterleaveHead(ts: seq<string>, gaps: seq<string>)
    requires |ts| > 0 && |gaps| == |ts| - 1 && |ts[0]| > 0
    ensures |Interleave(ts, gaps)| > 0 && Interleave(ts, gaps)[0] == ts[0][0]
  {
  }

  /** For a single-space-separated class list the rewrite suffixes each token once. */
  lemma SingleSpacedSuffixCount(ts: seq<string>)
    requires |ts| > 0
    requires forall k :: 0 <= k < |ts| ==> IsWord(ts[k])
    ensures WrapSuffix(JoinSpaced(ts)) == JoinSpaced(Suffixed(ts))
    ensures |Suffixed(ts)| == |ts|
  {
    var gaps := seq(|ts| - 1, _ => " ");
    InterleaveSpaced(ts, gaps);
    WrapSuffixTokens(ts, gaps);
  }

  /** Single-space gaps interleave to the space-joined list. */
  lemma {:induction false} InterleaveSpaced(ts: seq<string>, gaps: seq<string>)
    requires |ts| > 0 && |gaps| == |ts| - 1
    requires forall k :: 0 <= k < |gaps| ==> gaps[k] == " "
    ensures Interleave(ts, gaps) == JoinSpaced(ts)
    ensures forall k :: 0 <= k < |gaps| ==> IsGap(gaps[k])
    decreases |ts|
  {
    if |ts| > 1 {
      InterleaveSpaced(ts[1..], gaps[1..]);
    }
  }

  /**
   * A class attribute with leading whitespace yields a bare `-wrap` token on
   * the wrapper, because the regex rewrites the leading run too.
   */
  lemma LeadingSpaceGivesBareSuffix(g: string, ts: seq<string>, gaps: seq<string>)
    requires IsGap(g)
    requires |ts| > 0 && |gaps| == |ts| - 1
    requires forall k :: 0 <= k < |ts| ==> IsWord(ts[k])
    requires forall k :: 0 <= k < |gaps| ==> IsGap(gaps[k])
    ensures WrapSuffix(g + Interleave(ts, gaps)) == Suffix + " " + JoinSpaced(Suffixed(ts))
  {
    InterleaveHead(ts, gaps);
    GapThenWord(g, Interleave(ts, gaps));
    WrapSuffixTokens(ts, gaps);
  }

  /**
   * A class attribute with trailing whitespace yields a bare `-wrap` token at
   * the end of the wrapper's classes: `"a "` becomes `"a-wrap -wrap"`.
   */
  lemma TrailingSpaceGivesBareSuffix(ts: seq<string>, gaps: seq<string>, g: string)
    requires IsGap(g)
    requires |ts| > 0 && |gaps| == |ts| - 1
    requires forall k :: 0 <= k < |ts| ==> IsWord(ts[k])
    requires forall k :: 0 <= k < |gaps| ==> IsGap(gaps[k])
    ensures WrapSuffix(Interleave(ts, gaps) + g) == JoinSpaced(Suffixed(ts)) + (" " + Suffix)
  {
    var x := Interleave(ts, gaps);
    TrailingGap(ts, gaps, g);
    WrapSuffixTokens(ts, gaps);
    assert ReplaceRuns(x) + (Suffix + " ") + Suffix == (ReplaceRuns(x) + Suffix) + (" " + Suffix);
  }

  /** A trailing gap is rewritten to a trailing `-wrap `. */
  lemma {:induction false} TrailingGap(ts: seq<string>, gaps: seq<string>, g: string)
    requires IsGap(g)
    requires |ts| > 0 && |gaps| == |ts| - 1
    requires forall k :: 0 <= k < |ts| ==> IsWord(ts[k])
    requires forall k :: 0 <= k < |gaps| ==> IsGap(gaps[k])
    ensures ReplaceRuns(Interleave(ts, gaps) + g) == ReplaceRuns(Interleave(ts, gaps)) + (Suffix + " ")
    decreases |ts|
  {
    var t := ts[0];
    var tail := Suffix + " ";
    assert ReplaceRuns(g) == tail by {
      assert g + [] == g;
      DropSpacesGap(g, []);
    }
    if |ts| == 1 {
      assert t + [] == t;
      ReplaceRunsWord(t, []);
      ReplaceRunsWord(t, g);
    } else {
      var rest := Interleave(ts[1..], gaps[1..]);
      assert IsWord(ts[1]);
      InterleaveHead(ts[1..], gaps[1..]);
      TrailingGap(ts[1..], gaps[1..], g);
      assert (t + (gaps[0] + rest)) + g == t + (gaps[0] + (rest + g));
      assert (rest + g)[0] == rest[0];
      GapThenWord(gaps[0], rest + g);
      GapThenWord(gaps[0], rest);
      ReplaceRunsWord(t, gaps[0] + (rest + g));
      ReplaceRunsWord(t, gaps[0] + rest);
      assert t + (tail + (ReplaceRuns(rest) + tail)) == (t + (tail + ReplaceRuns(rest))) + tail;
    }
  }

  /** Every wrapper's class list contains the `zoom-img-wrap` token. */
  lemma WrapperHasWrapClass(imageClasses: string)
    ensures ContainsToken(WrapperClassName(imageClasses), WrapClass)
  {
    var s := WrapperClassName(imageClasses);
    assert s[0..|WrapClass|] == WrapClass;
    if imageClasses != [] {
      assert s[|WrapClass|] == ' ';
    }
  }
}

=== FILE: dom.dfy ===
/**
 * An abstract document: a forest of nodes addressed by id. Each node records
 * its parent, a sibling-order key `pos` (its slot among the parent's
 * children) and a `depth` that is strictly larger than its parent's, so that
 * walks up the ancestor chain terminate. Images are void elements: no node
 * has an `img` parent.
 */
module Dom {
  import opened Wrappers

  type Id = nat

  datatype Kind = Element | Text

  /**
   * A node with the properties the zoom runtime reads or writes:
   * `zoomProcessed` is `dataset.zoomProcessed` (`None` when the attribute is
   * absent), `loading` is whether `loading` is in the node's class list, and
   * the natural size and `complete` flag are the image's load state.
   */
  datatype Node = Node(
    kind: Kind,
    tag: string,
    classes: string,
    zoomProcessed: Option<string>,
    parent: Option<Id>,
    pos: nat,
    depth: nat,
    naturalWidth: nat,
    naturalHeight: nat,
    complete: bool,
    loading: bool)

  /**
   * The document: its nodes, the next fresh id, and the `load` listeners the
   * wrapper installer registered, from image to the wrapper it un-marks.
   */
  datatype Doc = Doc(nodes: map<Id, Node>, nextId: Id, loadWatch: map<Id, Id>)

  /** An attached `img` element, the only kind of node the runtime wraps. */
  predicate IsImage(n: Node) {
    n.kind == Element && n.tag == "img" && n.parent.Some?
  }

  /** The parent of `x` exists, is a non-image element, and is strictly shallower. */
  predicate ParentOk(d: Doc, x: Id)
    requires x in d.nodes && d.nodes[x].parent.Some?
  {
    var p := d.nodes[x].parent.value;
    && p in d.nodes
    && d.nodes[p].kind == Element
    && d.nodes[p].tag != "img"
    && d.nodes[p].depth < d.nodes[x].depth
  }

  /** The structural invariant of the document. */
  predicate WellFormed(d: Doc) {
    && (forall x :: x in d.nodes ==> x < d.nextId)
    && (forall x :: x in d.nodes && d.nodes[x].parent.Some? ==> ParentOk(d, x))
    && (forall x :: x in d.loadWatch ==> x in d.nodes && d.loadWatch[x] in d.nodes)
  }

  /** `closest(tag)`: `x` itself or one of its ancestors has the given tag. */
  predicate Closest(d: Doc, x: Id, tag: string)
    requires WellFormed(d) && x in d.nodes
    decreases d.nodes[x].depth
  {
    || d.nodes[x].tag == tag
    || (d.nodes[x].parent.Some? && Closest(d, d.nodes[x].parent.value, tag))
  }

  /** `a` is `y` or one of `y`'s ancestors. */
  predicate InclusiveAncestor(d: Doc, a: Id, y: Id)
    requires WellFormed(d) && y in d.nodes
    decreases d.nodes[y].depth
  {
    || a == y
    || (d.nodes[y].parent.Some? && InclusiveAncestor(d, a, d.nodes[y].parent.value))
  }

  /** `x.querySelector('img')` finds something: an `img` element strictly below `x`. */
  predicate HasImageDescendant(d: Doc, x: Id)
    requires WellFormed(d)
  {
    exists y :: y in d.nodes && y != x && d.nodes[y].kind == Element
      && d.nodes[y].tag == "img" && InclusiveAncestor(d, x, y)
  }

  /** Node `b` is node `a` with only its placement in the tree changed. */
  predicate SameContent(a: Node, b: Node) {
    a.(parent := b.parent, pos := b.pos, depth := b.depth) == b
  }

  /**
   * `img.parentNode.insertBefore(wrapper, img); wrapper.appendChild(img)`:
   * a fresh `div` with class string `cls` takes the image's slot under the
   * image's parent, and the image becomes its only child.
   */
  function Reparent(d: Doc, x: Id, cls: string, loading: bool): (r: Doc)
    requires WellFormed(d) && x in d.nodes && IsImage(d.nodes[x])
    ensures WellFormed(r)
    ensures r.nextId == d.nextId + 1 && d.nextId !in d.nodes
    ensures r.nodes.Keys == d.nodes.Keys + {d.nextId}
    ensures r.loadWatch == d.loadWatch
    ensures r.nodes[x].parent == Some(d.nextId)
    ensures r.nodes[d.nextId].parent == d.nodes[x].parent
    ensures r.nodes[d.nextId].pos == d.nodes[x].pos
    ensures r.nodes[d.nextId].kind == Element && r.nodes[d.nextId].tag == "div"
    ensures r.nodes[d.nextId].classes == cls && r.nodes[d.nextId].loading == loading
    ensures SameContent(d.nodes[x], r.nodes[x]) && IsImage(r.nodes[x])
    ensures forall y :: y in d.nodes && y != x ==> r.nodes[y] == d.nodes[y]
  {
    var n := d.nodes[x];
    var w := d.nextId;
    var wrapper := Node(Element, "div", cls, None, n.parent, n.pos, n.depth, 0, 0, true, loading);
    var img := n.(parent := Some(w), pos := 0, depth := n.depth + 1);
    var r := Doc(d.nodes[x := img][w := wrapper], d.nextId + 1, d.loadWatch);
    assert forall y :: y in r.nodes && r.nodes[y].parent.Some? ==> ParentOk(r, y) by {
      forall y | y in r.nodes && r.nodes[y].parent.Some?
        ensures ParentOk(r, y)
      {
        if y != x && y != w {
          assert ParentOk(d, y);
          assert d.nodes[y].parent.value != x;
        }
      }
    }
    r
  }

  /** Wrapping `x` in a `div` changes no node's `closest(tag)` for any tag other than `div`. */
  lemma {:induction false} ReparentKeepsClosest(d: Doc, x: Id, cls: string, loading: bool, y: Id, tag: string)
    requires WellFormed(d) && x in d.nodes && IsImage(d.nodes[x])
    requires y in d.nodes && tag != "div"
    ensures Closest(Reparent(d, x, cls, loading), y, tag) == Closest(d, y, tag)
    decreases d.nodes[y].depth
  {
    var r := Reparent(d, x, cls, loading);
    var p := d.nodes[y].parent;
    if p.Some? {
      assert ParentOk(d, y);
      ReparentKeepsClosest(d, x, cls, loading, p.value, tag);
      if y == x {
        assert r.nodes[x].parent == Some(d.nextId);
        assert Closest(r, d.nextId, tag) == Closest(r, p.value, tag);
      }
    }
  }

  /** `img.addEventListener('load', ...)`: registers the listener of image `x` for wrapper `w`. */
  function Watch(d: Doc, x: Id, w: Id): (r: Doc)
    requires WellFormed(d) && x in d.nodes && w in d.nodes
    ensures WellFormed(r) && r.nodes == d.nodes && r.nextId == d.nextId
    ensures x in r.loadWatch && r.loadWatch[x] == w
    ensures forall y :: y in d.loadWatch && y != x ==> y in r.loadWatch && r.loadWatch[y] == d.loadWatch[y]
  {
    d.(loadWatch := d.loadWatch[x := w])
  }

  /**
   * In `r`, node `y` of `d` sits in a wrapper that `d` did not have: a `div`
   * with class string `cls` occupying `y`'s old slot under `y`'s old parent.
   */
  predicate Enclosed(d: Doc, r: Doc, y: Id, cls: string)
    requires y in d.nodes && y in r.nodes
  {
    var w := r.nodes[y].parent;
    && w.Some? && w.value !in d.nodes && w.value in r.nodes
    && r.nodes[w.value].kind == Element
    && r.nodes[w.value].tag == "div"
    && r.nodes[w.value].parent == d.nodes[y].parent
    && r.nodes[w.value].pos == d.nodes[y].pos
    && r.nodes[w.value].classes == cls
  }

  /** `e` keeps every node of `d` with the same tag and the same parent. */
  predicate SameShape(d: Doc, e: Doc) {
    && d.nodes.Keys <= e.nodes.Keys
    && forall z :: z in d.nodes ==> e.nodes[z].tag == d.nodes[z].tag && e.nodes[z].parent == d.nodes[z].parent
  }

  /** `closest` depends only on tags and parents. */
  lemma {:induction false} SameShapeKeepsClosest(d: Doc, e: Doc, y: Id, tag: string)
    requires WellFormed(d) && WellFormed(e) && SameShape(d, e) && y in d.nodes
    ensures Closest(e, y, tag) == Closest(d, y, tag)
    decreases d.nodes[y].depth
  {
    if d.nodes[y].parent.Some? {
      assert ParentOk(d, y);
      SameShapeKeepsClosest(d, e, d.nodes[y].parent.value, tag);
    }
  }

  /**
   * The browser's `load` event for image `x` with its natural size, and the
   * listener the wrapper installer registered for it, which removes
   * `loading` from the wrapper's class list.
   */
  function LoadImage(d: Doc, x: Id, width: nat, height: nat): (r: Doc)
    requires WellFormed(d) && x in d.nodes
    ensures WellFormed(r) && r.nodes.Keys == d.nodes.Keys && r.nextId == d.nextId
    ensures r.nodes[x] == d.nodes[x].(complete := true, naturalWidth := width, naturalHeight := height, loading := r.nodes[x].loading)
    ensures x in d.loadWatch && d.loadWatch[x] != x ==> !r.nodes[d.loadWatch[x]].loading
    ensures forall y :: y in d.nodes && y != x && (x !in d.loadWatch || y != d.loadWatch[x]) ==>
      r.nodes[y] == d.nodes[y]
    ensures x in d.loadWatch && d.loadWatch[x] != x ==>
      r.nodes[d.loadWatch[x]] == d.nodes[d.loadWatch[x]].(loading := false)
    ensures r.loadWatch == d.loadWatch
    ensures SameShape(d, r) && SameShape(r, d)
  {
    var loaded := SetNode(d, x, d.nodes[x].(complete := true, naturalWidth := width, naturalHeight := height));
    if x in d.loadWatch then
      var w := d.loadWatch[x];
      SetNode(loaded, w, loaded.nodes[w].(loading := false))
    else loaded
  }

  /** Replaces the record of node `x` by one in the same place of the tree. */
  function SetNode(d: Doc, x: Id, n: Node): (r: Doc)
    requires WellFormed(d) && x in d.nodes
    requires n.kind == d.nodes[x].kind && n.tag == d.nodes[x].tag
    requires n.parent == d.nodes[x].parent && n.depth == d.nodes[x].depth
    ensures WellFormed(r) && SameShape(d, r) && SameShape(r, d)
    ensures r.nodes == d.nodes[x := n] && r.nextId == d.nextId && r.loadWatch == d.loadWatch
  {
    var r := d.(nodes := d.nodes[x := n]);
    assert forall y :: y in r.nodes && r.nodes[y].parent.Some? ==> ParentOk(r, y) by {
      forall y | y in r.nodes && r.nodes[y].parent.Some?
        ensures ParentOk(r, y)
      {
        assert ParentOk(d, y);
      }
    }
    r
  }

  /** What `querySelectorAll` hands a scan: attached image elements of `d`. */
  predicate Matches(d: Doc, ms: seq<Id>) {
    && WellFormed(d)
    && forall i :: 0 <= i < |ms| ==> ms[i] in d.nodes && IsImage(d.nodes[ms[i]])
  }

  /** A member of a non-empty list is its head or in its tail. */
  lemma InHeadOrTail(ms: seq<Id>, y: Id)
    requires y in ms
    ensures y == ms[0] || y in ms[1..]
  {
    var i :| 0 <= i < |ms| && ms[i] == y;
    if i > 0 { assert ms[1..][i - 1] == y; }
  }
}

=== FILE: image_scan.dfy ===
/**
 * The image scan of the current runtime (`processImages` in
 * src/client/index.js): the eligibility rules, the `zoomProcessed` marker,
 * wrapper insertion with its derived class string and loading state, and
 * the mutation observer's "were images added" test that re-runs the scan.
 */
module ImageScan {
  import opened Wrappers
  import opened Dom
  import ClassNames

  /** Images narrower or shorter than this are taken for icons. */
  const MinSide: nat := 100

  /** `img.dataset.zoomProcessed === 'true'`. */
  predicate IsProcessed(n: Node) {
    n.zoomProcessed == Some("true")
  }

  /** The size rule: below the threshold on EITHER axis. */
  predicate TooSmall(n: Node) {
    n.naturalWidth < MinSide || n.naturalHeight < MinSide
  }

  /** The three skip rules, in the order `processImages` tests them, negated. */
  predicate Eligible(d: Doc, x: Id)
    requires WellFormed(d) && x in d.nodes
  {
    && !IsProcessed(d.nodes[x])
    && !Closest(d, x, "a")
    && !TooSmall(d.nodes[x])
  }

  /** `img.dataset.zoomProcessed = 'true'`. */
  function Mark(d: Doc, x: Id): (r: Doc)
    requires WellFormed(d) && x in d.nodes
    ensures WellFormed(r) && SameShape(d, r) && SameShape(r, d)
    ensures r.nextId == d.nextId && r.loadWatch == d.loadWatch
    ensures IsProcessed(r.nodes[x])
    ensures r.nodes[x] == d.nodes[x].(zoomProcessed := r.nodes[x].zoomProcessed)
    ensures forall y :: y in d.nodes && y != x ==> r.nodes[y] == d.nodes[y]
  {
    SetNode(d, x, d.nodes[x].(zoomProcessed := Some("true")))
  }

  /**
   * Installs the wrapper around `x`: marks it processed, reparents it under a
   * fresh `div` whose class string derives from the image's classes, and,
   * when the image has not finished loading, puts `loading` on the wrapper
   * and registers the `load` listener that removes it.
   */
  function Wrap(d: Doc, x: Id): (r: Doc)
    requires WellFormed(d) && x in d.nodes && IsImage(d.nodes[x])
    ensures WellFormed(r) && r.nodes.Keys == d.nodes.Keys + {d.nextId} && r.nextId == d.nextId + 1
    ensures d.nextId !in d.nodes
    ensures IsProcessed(r.nodes[x]) && IsImage(r.nodes[x])
    ensures r.nodes[x].parent == Some(d.nextId)
    ensures var w := r.nodes[d.nextId];
      && w.kind == Element && w.tag == "div"
      && w.parent == d.nodes[x].parent && w.pos == d.nodes[x].pos
      && w.classes == ClassNames.WrapperClassName(d.nodes[x].classes)
      && w.loading == !d.nodes[x].complete
    ensures !d.nodes[x].complete <==> x in r.loadWatch && r.loadWatch[x] == d.nextId
    ensures r.loadWatch == if d.nodes[x].complete then d.loadWatch else d.loadWatch[x := d.nextId]
    ensures forall y :: y in d.nodes && y != x ==> r.nodes[y] == d.nodes[y]
    ensures SameContent(d.nodes[x].(zoomProcessed := Some("true")), r.nodes[x])
  {
    var n := d.nodes[x];
    var r := Reparent(Mark(d, x), x, ClassNames.WrapperClassName(n.classes), !n.complete);
    if n.complete then r else Watch(r, x, d.nextId)
  }

  /** Wrapping changes no node's `closest('a')`. */
  lemma WrapKeepsClosest(d: Doc, x: Id, y: Id)
    requires WellFormed(d) && x in d.nodes && IsImage(d.nodes[x]) && y in d.nodes
    ensures Closest(Wrap(d, x), y, "a") == Closest(d, y, "a")
  {
    var n := d.nodes[x];
    var m := Mark(d, x);
    SameShapeKeepsClosest(d, m, y, "a");
    ReparentKeepsClosest(m, x, ClassNames.WrapperClassName(n.classes), !n.complete, y, "a");
    var r := Reparent(m, x, ClassNames.WrapperClassName(n.classes), !n.complete);
    if !n.complete {
      var r2 := Watch(r, x, d.nextId);
      assert Closest(r2, y, "a") == Closest(r, y, "a") by {
        SameShapeKeepsClosest(r, r2, y, "a");
      }
      assert Wrap(d, x) == r2;
    } else {
      assert Wrap(d, x) == r;
    }
  }

  /** One iteration of the `forEach`: wrap `x` when it is eligible, else leave the page alone. */
  function Visit(d: Doc, x: Id): Doc
    requires WellFormed(d) && x in d.nodes && IsImage(d.nodes[x])
  {
    if Eligible(d, x) then Wrap(d, x) else d
  }

  /**
   * Image `y` of `d` was wrapped in `r`: it is marked, and its parent is a
   * node that did not exist in `d`, a `div` carrying the derived class
   * string that occupies the image's old slot under its old parent. The
   * wrapper is `loading` exactly when the image was not yet complete, and
   * then the image's `load` listener points at that wrapper.
   */
  predicate Wrapped(d: Doc, r: Doc, y: Id)
    requires y in d.nodes && y in r.nodes
  {
    && SameContent(d.nodes[y].(zoomProcessed := Some("true")), r.nodes[y])
    && Enclosed(d, r, y, ClassNames.WrapperClassName(d.nodes[y].classes))
    && var w := r.nodes[y].parent.value;
      && r.nodes[w].loading == !d.nodes[y].complete
      && (!d.nodes[y].complete ==> y in r.loadWatch && r.loadWatch[y] == w)
  }

  /** Wrapping an eligible image: it ends marked and wrapped, and nothing else changes. */
  lemma WrapStep(d: Doc, x: Id)
    requires WellFormed(d) && x in d.nodes && IsImage(d.nodes[x]) && Eligible(d, x)
    ensures var d1 := Wrap(d, x);
      && WellFormed(d1) && d.nodes.Keys <= d1.nodes.Keys && d.nextId <= d1.nextId
      && (forall y :: y in d1.nodes && y !in d.nodes ==> y >= d.nextId)
      && (forall y :: y in d.nodes && y != x ==> d1.nodes[y] == d.nodes[y])
      && (forall y :: y in d.loadWatch && y != x ==> y in d1.loadWatch && d1.loadWatch[y] == d.loadWatch[y])
      && (forall y :: y in d.nodes ==> Closest(d1, y, "a") == Closest(d, y, "a"))
      && (forall y :: y in d.nodes && y != x ==> Eligible(d1, y) == Eligible(d, y))
      && IsImage(d1.nodes[x]) && !Eligible(d1, x)
      && Wrapped(d, d1, x) && IsProcessed(d1.nodes[x])
  {
    WrapFrame(d, x);
    WrapKeepsAllClosest(d, x);
    WrapKeepsOthersEligibility(d, x);
    WrapWraps(d, x);
  }

  /** Wrapping keeps the page well formed and only adds the fresh wrapper. */
  lemma WrapFrame(d: Doc, x: Id)
    requires WellFormed(d) && x in d.nodes && IsImage(d.nodes[x])
    ensures var d1 := Wrap(d, x);
      && WellFormed(d1) && d.nodes.Keys <= d1.nodes.Keys && d.nextId <= d1.nextId
      && (forall y :: y in d1.nodes && y !in d.nodes ==> y >= d.nextId)
      && (forall y :: y in d.nodes && y != x ==> d1.nodes[y] == d.nodes[y])
      && (forall y :: y in d.loadWatch && y != x ==> y in d1.loadWatch && d1.loadWatch[y] == d.loadWatch[y])
      && IsImage(d1.nodes[x])
  {
  }

  /** The wrapped image ends marked, enclosed in its wrapper, and no longer eligible. */
  lemma WrapWraps(d: Doc, x: Id)
    requires WellFormed(d) && x in d.nodes && IsImage(d.nodes[x])
    ensures var d1 := Wrap(d, x);
      && IsProcessed(d1.nodes[x]) && !Eligible(d1, x) && Wrapped(d, d1, x)
  {
  }

  /** Wrapping changes no node's `closest('a')`, for all nodes at once. */
  lemma WrapKeepsAllClosest(d: Doc, x: Id)
    requires WellFormed(d) && x in d.nodes && IsImage(d.nodes[x])
    ensures forall y :: y in d.nodes ==> Closest(Wrap(d, x), y, "a") == Closest(d, y, "a")
  {
    forall y | y in d.nodes
      ensures Closest(Wrap(d, x), y, "a") == Closest(d, y, "a")
    {
      WrapKeepsClosest(d, x, y);
    }
  }

  /** Wrapping one image leaves every other node's eligibility as it was, for all nodes at once. */
  lemma WrapKeepsOthersEligibility(d: Doc, x: Id)
    requires WellFormed(d) && x in d.nodes && IsImage(d.nodes[x])
    ensures forall y :: y in d.nodes && y != x ==> Eligible(Wrap(d, x), y) == Eligible(d, y)
  {
    forall y | y in d.nodes && y != x
      ensures Eligible(Wrap(d, x), y) == Eligible(d, y)
    {
      WrapKeepsEligibility(d, x, y);
    }
  }

  /** Wrapping one image leaves every other node's eligibility as it was. */
  lemma WrapKeepsEligibility(d: Doc, x: Id, y: Id)
    requires WellFormed(d) && x in d.nodes && IsImage(d.nodes[x]) && y in d.nodes && y != x
    ensures Eligible(Wrap(d, x), y) == Eligible(d, y)
  {
    WrapKeepsClosest(d, x, y);
    assert Wrap(d, x).nodes[y] == d.nodes[y];
  }

  /** One iteration: the visited image ends ineligible, and nothing else changes. */
  lemma VisitStep(d: Doc, x: Id)
    requires WellFormed(d) && x in d.nodes && IsImage(d.nodes[x])
    ensures var d1 := Visit(d, x);
      && WellFormed(d1) && d.nodes.Keys <= d1.nodes.Keys && d.nextId <= d1.nextId
      && (forall y :: y in d1.nodes && y !in d.nodes ==> y >= d.nextId)
      && (forall y :: y in d.nodes && y != x ==> d1.nodes[y] == d.nodes[y])
      && (forall y :: y in d.loadWatch && y != x ==> y in d1.loadWatch && d1.loadWatch[y] == d.loadWatch[y])
      && (forall y :: y in d.nodes ==> Closest(d1, y, "a") == Closest(d, y, "a"))
      && (forall y :: y in d.nodes && y != x ==> Eligible(d1, y) == Eligible(d, y))
      && IsImage(d1.nodes[x]) && !Eligible(d1, x)
      && (Eligible(d, x) ==> Wrapped(d, d1, x) && IsProcessed(d1.nodes[x]))
      && (!Eligible(d, x) ==> d1 == d)
  {
    if Eligible(d, x) {
      WrapStep(d, x);
    }
  }

  /** Matches stay matches along a scan, and a scan only adds nodes. */
  lemma MatchesTail(d: Doc, ms: seq<Id>)
    requires Matches(d, ms) && ms != []
    ensures Matches(Visit(d, ms[0]), ms[1..])
  {
    var d1 := Visit(d, ms[0]);
    assert WellFormed(d1) && forall y :: y in d.nodes && y != ms[0] ==> y in d1.nodes && d1.nodes[y] == d.nodes[y];
    assert ms[0] in d1.nodes && IsImage(d1.nodes[ms[0]]);
    forall i | 0 <= i < |ms| - 1
      ensures ms[1..][i] in d1.nodes && IsImage(d1.nodes[ms[1..][i]])
    {
      assert ms[1..][i] == ms[i + 1];
    }
  }

  /** `processImages` over the static list of matches `ms`, in document order. */
  function Scan(d: Doc, ms: seq<Id>): (r: Doc)
    requires Matches(d, ms)
    ensures WellFormed(r) && d.nodes.Keys <= r.nodes.Keys
    ensures forall y :: y in d.nodes && IsImage(d.nodes[y]) ==> IsImage(r.nodes[y])
    decreases |ms|
  {
    if ms == [] then d
    else
      MatchesTail(d, ms);
      VisitStep(d, ms[0]);
      Scan(Visit(d, ms[0]), ms[1..])
  }

  /**
   * A scan keeps the page well formed and keeps every image an image; the
   * only nodes it adds are fresh, and each is the parent of an eligible match.
   */
  lemma {:induction false} ScanShape(d: Doc, ms: seq<Id>)
    requires Matches(d, ms)
    ensures var r := Scan(d, ms);
      && Matches(r, ms) && d.nodes.Keys <= r.nodes.Keys && d.nextId <= r.nextId
      && (forall y :: y in r.nodes && y !in d.nodes ==> y >= d.nextId)
      && (forall y :: y in d.nodes ==> Closest(r, y, "a") == Closest(d, y, "a"))
    ensures var r := Scan(d, ms);
      forall y :: y in r.nodes && y !in d.nodes ==>
        exists x :: x in ms && x in r.nodes && Eligible(d, x) && r.nodes[x].parent == Some(y)
    decreases |ms|
  {
    if ms != [] {
      VisitStep(d, ms[0]);
      MatchesTail(d, ms);
      var d1 := Visit(d, ms[0]);
      ScanShape(d1, ms[1..]);
      var r := Scan(d, ms);
      ScanFrame(d1, ms[1..]);
      forall y | y in r.nodes && y !in d.nodes
        ensures exists x :: x in ms && x in r.nodes && Eligible(d, x) && r.nodes[x].parent == Some(y)
      {
        if y in d1.nodes {
          assert Eligible(d, ms[0]) && y == d.nextId;
          assert r.nodes[ms[0]] == d1.nodes[ms[0]];
          assert ms[0] in ms && ms[0] in r.nodes && r.nodes[ms[0]].parent == Some(y);
        } else {
          var x :| x in ms[1..] && x in r.nodes && Eligible(d1, x) && r.nodes[x].parent == Some(y);
          assert x != ms[0] && x in ms;
          assert Eligible(d, x);
        }
      }
      assert ms[0] in r.nodes && IsImage(r.nodes[ms[0]]) by {
        ScanFrame(d1, ms[1..]);
        if ms[0] !in ms[1..] || !Eligible(d1, ms[0]) {
        }
      }
      forall i | 0 <= i < |ms|
        ensures ms[i] in r.nodes && IsImage(r.nodes[ms[i]])
      {
        if i > 0 { assert ms[i] == ms[1..][i - 1]; }
      }
    }
  }

  /**
   * Nodes that are not eligible matches come out of a scan exactly as they
   * went in, their `load` listeners are kept, and the only listeners a scan
   * adds belong to eligible matches.
   */
  lemma {:induction false} ScanFrame(d: Doc, ms: seq<Id>)
    requires Matches(d, ms)
    ensures forall y :: y in d.nodes && !(y in ms && Eligible(d, y)) ==> Scan(d, ms).nodes[y] == d.nodes[y]
    ensures forall y :: y in d.nodes && IsImage(d.nodes[y]) ==> IsImage(Scan(d, ms).nodes[y])
    ensures forall y :: y in d.loadWatch && y in d.nodes && !(y in ms && Eligible(d, y)) ==>
      y in Scan(d, ms).loadWatch && Scan(d, ms).loadWatch[y] == d.loadWatch[y]
    ensures forall y :: y in Scan(d, ms).loadWatch ==> y in d.loadWatch || (y in ms && Eligible(d, y))
    decreases |ms|
  {
    if ms != [] {
      VisitStep(d, ms[0]);
      MatchesTail(d, ms);
      var d1 := Visit(d, ms[0]);
      ScanFrame(d1, ms[1..]);
      forall y | y in d.nodes && !(y in ms && Eligible(d, y))
        ensures Scan(d, ms).nodes[y] == d.nodes[y]
      {
        if y != ms[0] {
          assert !(y in ms[1..] && Eligible(d1, y));
        }
      }
      forall y | y in d.loadWatch && y in d.nodes && !(y in ms && Eligible(d, y))
        ensures y in Scan(d, ms).loadWatch && Scan(d, ms).loadWatch[y] == d.loadWatch[y]
      {
        if y != ms[0] {
          assert !(y in ms[1..] && Eligible(d1, y));
        }
      }
      forall y | y in Scan(d, ms).loadWatch
        ensures y in d.loadWatch || (y in ms && Eligible(d, y))
      {
        if y !in d1.loadWatch {
          assert y in ms[1..] && Eligible(d1, y);
          assert y != ms[0] && y in ms;
        } else if y !in d.loadWatch {
          assert Eligible(d, ms[0]) && y == ms[0];
        }
      }
    }
  }

  /** After a scan no match is eligible: each was wrapped or is still skipped. */
  lemma {:induction false} ScanLeavesNoneEligible(d: Doc, ms: seq<Id>)
    requires Matches(d, ms)
    ensures Matches(Scan(d, ms), ms)
    ensures forall i :: 0 <= i < |ms| ==> !Eligible(Scan(d, ms), ms[i])
    decreases |ms|
  {
    if ms != [] {
      var x := ms[0];
      var rest := ms[1..];
      VisitStep(d, x);
      MatchesTail(d, ms);
      var d1 := Visit(d, x);
      var r := Scan(d1, rest);
      assert r == Scan(d, ms);
      ScanLeavesNoneEligible(d1, rest);
      if x !in rest {
        ScanFrame(d1, rest);
        ScanShape(d1, rest);
        assert r.nodes[x] == d1.nodes[x];
        assert Closest(r, x, "a") == Closest(d1, x, "a");
        assert !Eligible(r, x);
      } else {
        var k :| 0 <= k < |rest| && rest[k] == x;
        assert !Eligible(r, rest[k]);
      }
      forall i | 0 <= i < |ms|
        ensures !Eligible(r, ms[i])
      {
        if i > 0 {
          assert ms[i] == rest[i - 1];
        }
      }
    }
  }

  /** An image newly marked by a scan was an eligible match. */
  lemma {:induction false} ScanMarksEligible(d: Doc, ms: seq<Id>)
    requires Matches(d, ms)
    ensures forall y :: y in d.nodes ==>
      (IsProcessed(Scan(d, ms).nodes[y]) <==> IsProcessed(d.nodes[y]) || (y in ms && Eligible(d, y)))
    decreases |ms|
  {
    if ms != [] {
      var x := ms[0];
      var rest := ms[1..];
      VisitStep(d, x);
      MatchesTail(d, ms);
      var d1 := Visit(d, x);
      var r := Scan(d1, rest);
      assert r == Scan(d, ms);
      ScanMarksEligible(d1, rest);
      forall y | y in d.nodes
        ensures IsProcessed(r.nodes[y]) <==> IsProcessed(d.nodes[y]) || (y in ms && Eligible(d, y))
      {
        if y == x {
          if x in rest {
            assert !Eligible(d1, x);
          }
        } else {
          assert d1.nodes[y] == d.nodes[y];
          assert Eligible(d1, y) == Eligible(d, y);
          assert y in ms <==> y in rest by { if y in ms { InHeadOrTail(ms, y); } }
        }
      }
    }
  }

  /** Every eligible match comes out of a scan in a fresh wrapper that took its old slot. */
  lemma {:induction false} ScanWrapsEligible(d: Doc, ms: seq<Id>)
    requires Matches(d, ms)
    ensures forall y :: y in ms && Eligible(d, y) ==> Wrapped(d, Scan(d, ms), y)
    decreases |ms|
  {
    if ms != [] {
      var x := ms[0];
      var rest := ms[1..];
      VisitStep(d, x);
      MatchesTail(d, ms);
      var d1 := Visit(d, x);
      var r := Scan(d1, rest);
      assert r == Scan(d, ms);
      ScanWrapsEligible(d1, rest);
      ScanFrame(d1, rest);
      if Eligible(d, x) {
        assert !Eligible(d1, x);
        var w := d1.nodes[x].parent.value;
        assert w !in d.nodes;
        assert w in d1.nodes;
        assert w !in rest;
        assert r.nodes[x] == d1.nodes[x];
        assert r.nodes[w] == d1.nodes[w];
        if !d.nodes[x].complete {
          assert x in d1.loadWatch && d1.loadWatch[x] == w;
          assert x in r.loadWatch && r.loadWatch[x] == w;
        }
        assert Wrapped(d, r, x);
      }
      forall y | y in ms && Eligible(d, y)
        ensures Wrapped(d, r, y)
      {
        InHeadOrTail(ms, y);
        if y != x {
          assert d1.nodes[y] == d.nodes[y];
          assert Eligible(d1, y);
          assert Wrapped(d1, r, y);
        }
      }
    }
  }

  /** A scan over matches none of which is eligible changes nothing. */
  lemma {:induction false} ScanIneligibleIsIdentity(d: Doc, ms: seq<Id>)
    requires Matches(d, ms)
    requires forall i :: 0 <= i < |ms| ==> !Eligible(d, ms[i])
    ensures Scan(d, ms) == d
    decreases |ms|
  {
    if ms != [] {
      MatchesTail(d, ms);
      assert forall i :: 0 <= i < |ms[1..]| ==> ms[1..][i] == ms[i + 1];
      ScanIneligibleIsIdentity(d, ms[1..]);
    }
  }

  /** Scanning twice over the same matches is scanning once: no image is wrapped twice. */
  lemma ScanIdempotent(d: Doc, ms: seq<Id>)
    requires Matches(d, ms)
    ensures Matches(Scan(d, ms), ms)
    ensures Scan(Scan(d, ms), ms) == Scan(d, ms)
  {
    ScanLeavesNoneEligible(d, ms);
    ScanIneligibleIsIdentity(Scan(d, ms), ms);
  }

  /** A skipped image is left unmarked and in place, so a later scan may still wrap it. */
  lemma SkippedStayUnmarked(d: Doc, ms: seq<Id>, y: Id)
    requires Matches(d, ms) && y in ms && !IsProcessed(d.nodes[y])
    requires Closest(d, y, "a") || TooSmall(d.nodes[y])
    ensures !IsProcessed(Scan(d, ms).nodes[y])
    ensures Scan(d, ms).nodes[y] == d.nodes[y]
  {
    ScanFrame(d, ms);
  }

  /**
   * An image skipped only for its size (for instance because it had not
   * loaded, so its natural size read 0) is wrapped by the next scan once its
   * `load` event has given it a size of at least 100 on both axes.
   */
  lemma LoadedImageWrappedByLaterScan(d: Doc, ms: seq<Id>, y: Id, width: nat, height: nat)
    requires Matches(d, ms) && y in ms
    requires !IsProcessed(d.nodes[y]) && !Closest(d, y, "a") && TooSmall(d.nodes[y])
    requires width >= MinSide && height >= MinSide
    ensures var s := Scan(d, ms);
      && Matches(LoadImage(s, y, width, height), ms)
      && Wrapped(LoadImage(s, y, width, height), Scan(LoadImage(s, y, width, height), ms), y)
  {
    ScanFrame(d, ms);
    ScanShape(d, ms);
    var s := Scan(d, ms);
    assert s.nodes[y] == d.nodes[y];
    assert !Closest(s, y, "a");
    var l := LoadImage(s, y, width, height);
    LoadKeepsMatches(s, ms, y, width, height);
    SameShapeKeepsClosest(s, l, y, "a");
    assert l.nodes[y].zoomProcessed == s.nodes[y].zoomProcessed;
    assert !TooSmall(l.nodes[y]);
    assert Eligible(l, y);
    ScanWrapsEligible(l, ms);
    assert forall z :: z in ms && Eligible(l, z) ==> Wrapped(l, Scan(l, ms), z);
  }

  /** The `load` event keeps every match a match. */
  lemma LoadKeepsMatches(s: Doc, ms: seq<Id>, y: Id, width: nat, height: nat)
    requires Matches(s, ms) && y in s.nodes
    ensures Matches(LoadImage(s, y, width, height), ms)
  {
    var l := LoadImage(s, y, width, height);
    forall i | 0 <= i < |ms| ensures ms[i] in l.nodes && IsImage(l.nodes[ms[i]]) {
      assert IsImage(s.nodes[ms[i]]);
    }
  }

  /** A DOM mutation record: the nodes it added. */
  datatype Mutation = Mutation(addedNodes: seq<Id>)

  /** An added node that is an element and is, or contains, an `img`. */
  predicate BringsImage(d: Doc, x: Id)
    requires WellFormed(d)
  {
    && x in d.nodes
    && d.nodes[x].kind == Element
    && (d.nodes[x].tag == "img" || HasImageDescendant(d, x))
  }

  /** The observer's test: some mutation added a node that brings an image. */
  predicate HasNewImages(d: Doc, muts: seq<Mutation>)
    requires WellFormed(d)
  {
    exists i, j :: 0 <= i < |muts| && 0 <= j < |muts[i].addedNodes| && BringsImage(d, muts[i].addedNodes[j])
  }

  /** The observer callback: re-scan when images were added, else do nothing. */
  function Observe(d: Doc, ms: seq<Id>, muts: seq<Mutation>): Doc
    requires Matches(d, ms)
  {
    if HasNewImages(d, muts) then Scan(d, ms) else d
  }

  /**
   * The wrapper the scan inserts is itself an added node that brings an
   * image, so the observer does see the scan's own insertions.
   */
  lemma WrapperInsertionTriggersObserver(d: Doc, ms: seq<Id>, y: Id)
    requires Matches(d, ms) && y in ms && Eligible(d, y)
    ensures var r := Scan(d, ms);
      WellFormed(r) && r.nodes[y].parent.Some?
      && HasNewImages(r, [Mutation([r.nodes[y].parent.value])])
  {
    ScanWrapsEligible(d, ms);
    var r := Scan(d, ms);
    var w := r.nodes[y].parent.value;
    assert ParentOk(r, y);
    assert r.nodes[y].depth > r.nodes[w].depth;
    assert InclusiveAncestor(r, w, y);
    assert HasImageDescendant(r, w);
    assert BringsImage(r, [Mutation([w])][0].addedNodes[0]);
  }

  /**
   * The observer settles: after a scan, a re-scan over the same match list
   * (as after the scan's own wrapper insertions) changes nothing, whatever
   * mutations are reported.
   */
  lemma ObserverSettles(d: Doc, ms: seq<Id>, muts: seq<Mutation>)
    requires Matches(d, ms)
    ensures Matches(Scan(d, ms), ms)
    ensures Observe(Scan(d, ms), ms, muts) == Scan(d, ms)
  {
    ScanIdempotent(d, ms);
  }

  /**
   * The observer changes the page only when the mutations brought an image
   * and some match was still eligible; every other callback is a no-op.
   */
  lemma ObserverChangesOnlyForNewEligibleImages(d: Doc, ms: seq<Id>, muts: seq<Mutation>)
    requires Matches(d, ms)
    ensures Observe(d, ms, muts) != d ==>
      HasNewImages(d, muts) && exists i :: 0 <= i < |ms| && Eligible(d, ms[i])
  {
    if forall i :: 0 <= i < |ms| ==> !Eligible(d, ms[i]) {
      ScanIneligibleIsIdentity(d, ms);
    }
  }
}

=== FILE: legacy_scan.dfy ===
/**
 * The image scan of the earlier runtime revision (`processImages` in
 * client.js): an image is skipped when its parent already carries the
 * `zoom-img-wrap` class or when it sits inside a link; there is no
 * processed marker, no size filter and no loading state, and the mutation
 * observer re-runs the scan on every mutation.
 */
module LegacyScan {
  import opened Wrappers
  import opened Dom
  import ClassNames

  /** `img.parentElement?.classList?.contains('zoom-img-wrap')`. */
  predicate InWrapper(d: Doc, x: Id)
    requires WellFormed(d) && x in d.nodes
  {
    var p := d.nodes[x].parent;
    p.Some? && p.value in d.nodes && ClassNames.ContainsToken(d.nodes[p.value].classes, ClassNames.WrapClass)
  }

  /** The two skip rules, in the order `processImages` tests them, negated. */
  predicate Wrappable(d: Doc, x: Id)
    requires WellFormed(d) && x in d.nodes
  {
    !InWrapper(d, x) && !Closest(d, x, "a")
  }

  /** The bare wrapper class string is a `zoom-img-wrap` token list. */
  lemma WrapClassIsToken()
    ensures ClassNames.ContainsToken(ClassNames.WrapClass, ClassNames.WrapClass)
  {
    assert ClassNames.WrapClass[0..|ClassNames.WrapClass|] == ClassNames.WrapClass;
  }

  /** One iteration of the `forEach`: wrap `x` in a plain `zoom-img-wrap` div unless it is skipped. */
  function Visit(d: Doc, x: Id): Doc
    requires WellFormed(d) && x in d.nodes && IsImage(d.nodes[x])
  {
    if Wrappable(d, x) then Reparent(d, x, ClassNames.WrapClass, false) else d
  }

  /** One iteration: the visited image ends skipped, and nothing else changes. */
  lemma VisitStep(d: Doc, x: Id)
    requires WellFormed(d) && x in d.nodes && IsImage(d.nodes[x])
    ensures var d1 := Visit(d, x);
      && WellFormed(d1) && d.nodes.Keys <= d1.nodes.Keys && d.nextId <= d1.nextId
      && (forall y :: y in d1.nodes && y !in d.nodes ==> y >= d.nextId)
      && (forall y :: y in d.nodes && y != x ==> d1.nodes[y] == d.nodes[y])
      && (forall y :: y in d.nodes ==> Closest(d1, y, "a") == Closest(d, y, "a"))
      && (forall y :: y in d.nodes && y != x ==> Wrappable(d1, y) == Wrappable(d, y))
      && IsImage(d1.nodes[x]) && !Wrappable(d1, x)
      && (Wrappable(d, x) ==> d1.nodes[x] == d.nodes[x].(parent := d1.nodes[x].parent, depth := d1.nodes[x].depth, pos := 0)
                              && Enclosed(d, d1, x, ClassNames.WrapClass))
      && (!Wrappable(d, x) ==> d1 == d)
  {
    if Wrappable(d, x) {
      var d1 := Reparent(d, x, ClassNames.WrapClass, false);
      forall y | y in d.nodes
        ensures Closest(d1, y, "a") == Closest(d, y, "a")
      {
        ReparentKeepsClosest(d, x, ClassNames.WrapClass, false, y, "a");
      }
      forall y | y in d.nodes && y != x
        ensures InWrapper(d1, y) == InWrapper(d, y)
      {
        if d.nodes[y].parent.Some? {
          assert ParentOk(d, y);
        }
      }
      WrapClassIsToken();
      assert InWrapper(d1, x);
    }
  }

  /** Matches stay matches along a scan. */
  lemma MatchesTail(d: Doc, ms: seq<Id>)
    requires Matches(d, ms) && ms != []
    ensures Matches(Visit(d, ms[0]), ms[1..])
  {
    VisitStep(d, ms[0]);
    var d1 := Visit(d, ms[0]);
    forall i | 0 <= i < |ms| - 1
      ensures ms[1..][i] in d1.nodes && IsImage(d1.nodes[ms[1..][i]])
    {
      assert ms[1..][i] == ms[i + 1];
    }
  }

  /** `processImages` over the static list of matches `ms`, in document order. */
  function Scan(d: Doc, ms: seq<Id>): (r: Doc)
    requires Matches(d, ms)
    ensures WellFormed(r) && d.nodes.Keys <= r.nodes.Keys
    ensures forall y :: y in d.nodes && IsImage(d.nodes[y]) ==> IsImage(r.nodes[y])
    decreases |ms|
  {
    if ms == [] then d
    else
      MatchesTail(d, ms);
      VisitStep(d, ms[0]);
      Scan(Visit(d, ms[0]), ms[1..])
  }

  /**
   * A scan changes no `closest('a')`; the only nodes it adds are fresh, and
   * each is the parent of a wrappable match.
   */
  lemma {:induction false} ScanShape(d: Doc, ms: seq<Id>)
    requires Matches(d, ms)
    ensures var r := Scan(d, ms);
      && Matches(r, ms)
      && (forall y :: y in r.nodes && y !in d.nodes ==> y >= d.nextId)
      && (forall y :: y in d.nodes ==> Closest(r, y, "a") == Closest(d, y, "a"))
    ensures var r := Scan(d, ms);
      forall y :: y in r.nodes && y !in d.nodes ==>
        exists x :: x in ms && x in r.nodes && Wrappable(d, x) && r.nodes[x].parent == Some(y)
    decreases |ms|
  {
    if ms != [] {
      VisitStep(d, ms[0]);
      MatchesTail(d, ms);
      var d1 := Visit(d, ms[0]);
      ScanShape(d1, ms[1..]);
      ScanFrame(d1, ms[1..]);
      var r := Scan(d, ms);
      forall y | y in r.nodes && y !in d.nodes
        ensures exists x :: x in ms && x in r.nodes && Wrappable(d, x) && r.nodes[x].parent == Some(y)
      {
        if y in d1.nodes {
          assert Wrappable(d, ms[0]) && y == d.nextId;
          assert r.nodes[ms[0]] == d1.nodes[ms[0]];
          assert ms[0] in ms && ms[0] in r.nodes && r.nodes[ms[0]].parent == Some(y);
        } else {
          var x :| x in ms[1..] && x in r.nodes && Wrappable(d1, x) && r.nodes[x].parent == Some(y);
          assert x != ms[0] && x in ms;
          assert Wrappable(d, x);
        }
      }
    }
  }

  /** Nodes that are not wrappable matches come out of a scan exactly as they went in. */
  lemma {:induction false} ScanFrame(d: Doc, ms: seq<Id>)
    requires Matches(d, ms)
    ensures forall y :: y in d.nodes && !(y in ms && Wrappable(d, y)) ==> Scan(d, ms).nodes[y] == d.nodes[y]
    decreases |ms|
  {
    if ms != [] {
      VisitStep(d, ms[0]);
      MatchesTail(d, ms);
      var d1 := Visit(d, ms[0]);
      ScanFrame(d1, ms[1..]);
      forall y | y in d.nodes && !(y in ms && Wrappable(d, y))
        ensures Scan(d, ms).nodes[y] == d.nodes[y]
      {
        if y != ms[0] {
          assert !(y in ms[1..] && Wrappable(d1, y));
        }
      }
    }
  }

  /**
   * After a scan every match is skipped by the next one, because its parent
   * is now a wrapper (or it was skipped for a reason the scan did not change).
   */
  lemma {:induction false} ScanLeavesNoneWrappable(d: Doc, ms: seq<Id>)
    requires Matches(d, ms)
    ensures Matches(Scan(d, ms), ms)
    ensures forall i :: 0 <= i < |ms| ==> !Wrappable(Scan(d, ms), ms[i])
    decreases |ms|
  {
    ScanShape(d, ms);
    if ms != [] {
      var x := ms[0];
      var rest := ms[1..];
      VisitStep(d, x);
      MatchesTail(d, ms);
      var d1 := Visit(d, x);
      var r := Scan(d1, rest);
      assert r == Scan(d, ms);
      ScanLeavesNoneWrappable(d1, rest);
      if x !in rest {
        ScanFrame(d1, rest);
        ScanShape(d1, rest);
        assert r.nodes[x] == d1.nodes[x];
        if d1.nodes[x].parent.Some? {
          var p := d1.nodes[x].parent.value;
          assert ParentOk(d1, x);
          assert p !in rest;
          assert r.nodes[p] == d1.nodes[p];
        }
        assert InWrapper(r, x) == InWrapper(d1, x);
        assert Closest(r, x, "a") == Closest(d1, x, "a");
        assert !Wrappable(r, x);
      } else {
        var k :| 0 <= k < |rest| && rest[k] == x;
        assert !Wrappable(r, rest[k]);
      }
      forall i | 0 <= i < |ms|
        ensures !Wrappable(r, ms[i])
      {
        if i > 0 {
          assert ms[i] == rest[i - 1];
        }
      }
    }
  }

  /**
   * Every wrappable match, however small, comes out of a scan in a fresh
   * `zoom-img-wrap` div that took its old slot, its own content untouched.
   */
  lemma {:induction false} ScanWrapsAllWrappable(d: Doc, ms: seq<Id>)
    requires Matches(d, ms)
    ensures forall y :: y in ms && Wrappable(d, y) ==>
      && Enclosed(d, Scan(d, ms), y, ClassNames.WrapClass)
      && SameContent(d.nodes[y], Scan(d, ms).nodes[y])
    decreases |ms|
  {
    if ms != [] {
      var x := ms[0];
      var rest := ms[1..];
      VisitStep(d, x);
      MatchesTail(d, ms);
      var d1 := Visit(d, x);
      var r := Scan(d1, rest);
      assert r == Scan(d, ms);
      ScanWrapsAllWrappable(d1, rest);
      ScanFrame(d1, rest);
      if Wrappable(d, x) {
        assert !Wrappable(d1, x);
        var w := d1.nodes[x].parent.value;
        assert w !in rest;
        assert r.nodes[x] == d1.nodes[x];
        assert r.nodes[w] == d1.nodes[w];
        assert Enclosed(d, r, x, ClassNames.WrapClass);
      }
      forall y | y in ms && Wrappable(d, y)
        ensures Enclosed(d, r, y, ClassNames.WrapClass) && SameContent(d.nodes[y], r.nodes[y])
      {
        InHeadOrTail(ms, y);
        if y != x {
          assert d1.nodes[y] == d.nodes[y];
          assert Wrappable(d1, y);
        }
      }
    }
  }

  /** A scan over matches none of which is wrappable changes nothing. */
  lemma {:induction false} ScanUnwrappableIsIdentity(d: Doc, ms: seq<Id>)
    requires Matches(d, ms)
    requires forall i :: 0 <= i < |ms| ==> !Wrappable(d, ms[i])
    ensures Scan(d, ms) == d
    decreases |ms|
  {
    if ms != [] {
      MatchesTail(d, ms);
      assert forall i :: 0 <= i < |ms[1..]| ==> ms[1..][i] == ms[i + 1];
      ScanUnwrappableIsIdentity(d, ms[1..]);
    }
  }

  /**
   * The observer re-runs the scan on every mutation; the structural check
   * makes that harmless: a second scan over the same matches wraps nothing.
   */
  lemma ScanIdempotent(d: Doc, ms: seq<Id>)
    requires Matches(d, ms)
    ensures Matches(Scan(d, ms), ms)
    ensures Scan(Scan(d, ms), ms) == Scan(d, ms)
  {
    ScanLeavesNoneWrappable(d, ms);
    ScanUnwrappableIsIdentity(Scan(d, ms), ms);
  }

  /** No size filter: an icon-sized image outside links and wrappers is wrapped all the same. */
  lemma TinyImageWrapped(d: Doc, ms: seq<Id>, y: Id)
    requires Matches(d, ms) && y in ms && Wrappable(d, y)
    requires d.nodes[y].naturalWidth < 100 && d.nodes[y].naturalHeight < 100
    ensures Enclosed(d, Scan(d, ms), y, ClassNames.WrapClass)
  {
    ScanWrapsAllWrappable(d, ms);
  }

  /** An image inside a link or already inside a wrapper is left exactly where it is. */
  lemma SkippedUntouched(d: Doc, ms: seq<Id>, y: Id)
    requires Matches(d, ms) && y in d.nodes
    requires InWrapper(d, y) || Closest(d, y, "a")
    ensures Scan(d, ms).nodes[y] == d.nodes[y]
  {
    ScanFrame(d, ms);
  }
}

=== FILE: legacy_session.dfy ===
/**
 * The zoom session of the earlier runtime revision (`openZoom`,
 * `closeZoom` and `escHandler` in client.js): no transition flag and no
 * scroll lock; opening always closes the current session first; the
 * overlay's background and stacking order come from the plugin options.
 * Deferred work (the animation frame and the 300 ms removal timer) is a
 * multiset of pending timers that may fire in any order.
 */
module LegacySession {
  import opened Wrappers

  type PairId = nat

  /**
   * The plugin options the session reads: `background` (the empty string
   * is falsy) and `zIndex` (`None` when undefined; 0 is falsy too).
   */
  datatype Options = Options(background: string, zIndex: Option<int>)

  /**
   * One overlay and its zoomed image: the zoomed image's `src`, whether both
   * are `active`, the overlay's inline `background` and `zIndex` (`None`
   * when left to the style sheet) and the zoomed image's inline `zIndex`.
   */
  datatype Pair = Pair(src: string, active: bool, overlayBackground: Option<string>, overlayZIndex: Option<int>, zoomedZIndex: int)

  datatype Timer = Frame(pair: PairId) | RemovePair(pair: PairId)

  datatype Page = Page(
    activeZoom: Option<PairId>,
    pairs: map<PairId, Pair>,
    keyListeners: set<PairId>,
    pending: multiset<Timer>,
    nextPair: PairId)

  /** What can happen to the page: a click on a wrapped image (carrying its `src`), a key, a click on a pair, navigation, a timer. */
  datatype Event =
    | ClickImage(src: string)
    | DocumentKey(key: string)
    | ClickPair(pair: PairId)
    | Navigate
    | Fire(timer: Timer)

  /** JavaScript truthiness of `options.zIndex`. */
  predicate ZIndexSet(o: Options) {
    o.zIndex.Some? && o.zIndex.value != 0
  }

  /** `(options.zIndex || 999) + 1`. */
  function ZoomedZIndex(o: Options): (z: int)
    ensures ZIndexSet(o) ==> z == o.zIndex.value + 1
    ensures !ZIndexSet(o) ==> z == 1000
  {
    (if ZIndexSet(o) then o.zIndex.value else 999) + 1
  }

  /** The pair `openZoom` builds; the overlay's style is overridden only by truthy options. */
  function NewPair(src: string, o: Options): (r: Pair)
    ensures r.src == src && !r.active
    ensures r.overlayBackground.Some? <==> o.background != ""
    ensures r.overlayBackground.Some? ==> r.overlayBackground.value == o.background
    ensures r.overlayZIndex.Some? <==> ZIndexSet(o)
    ensures r.overlayZIndex.Some? ==> r.overlayZIndex.value == o.zIndex.value
    ensures r.zoomedZIndex == ZoomedZIndex(o)
  {
    Pair(src, false,
         if o.background != "" then Some(o.background) else None,
         if ZIndexSet(o) then o.zIndex else None,
         ZoomedZIndex(o))
  }

  /** Every pair id in use is below `nextPair`. */
  predicate FreshIds(s: Page) {
    && (forall q :: q in s.pairs ==> q < s.nextPair)
    && (s.activeZoom.Some? ==> s.activeZoom.value < s.nextPair)
  }

  /** `closeZoom`: a no-op with no session; otherwise ends it at once and defers removing its elements. */
  function Close(s: Page): (r: Page)
    ensures s.activeZoom.None? ==> r == s
    ensures s.activeZoom.Some? ==>
      var a := s.activeZoom.value;
      && r.activeZoom.None?
      && r.keyListeners == s.keyListeners - {a}
      && r.pending == s.pending + multiset{RemovePair(a)}
      && r.pairs.Keys == s.pairs.Keys
      && (a in s.pairs ==> r.pairs[a] == s.pairs[a].(active := false))
      && (forall q :: q in s.pairs && q != a ==> r.pairs[q] == s.pairs[q])
      && r.nextPair == s.nextPair
  {
    if s.activeZoom.None? then s
    else
      var a := s.activeZoom.value;
      s.(activeZoom := None,
         pairs := if a in s.pairs then s.pairs[a := s.pairs[a].(active := false)] else s.pairs,
         keyListeners := s.keyListeners - {a},
         pending := s.pending + multiset{RemovePair(a)})
  }

  /** `openZoom`: always closes the current session, then opens a fresh one for the image. */
  function Open(s: Page, src: string, o: Options): (r: Page)
    requires FreshIds(s)
    ensures r.activeZoom.Some? && r.activeZoom.value !in s.pairs
    ensures r.activeZoom.value in r.pairs && r.pairs[r.activeZoom.value] == NewPair(src, o)
    ensures Frame(r.activeZoom.value) in r.pending && r.activeZoom.value in r.keyListeners
    ensures r.pairs.Keys == s.pairs.Keys + {r.activeZoom.value}
    ensures s.activeZoom.Some? ==>
      RemovePair(s.activeZoom.value) in r.pending && s.activeZoom.value !in r.keyListeners
    ensures var p := s.nextPair;
      && r.activeZoom == Some(p) && r.nextPair == p + 1
      && (forall q :: q in s.pairs && Some(q) != s.activeZoom ==> r.pairs[q] == s.pairs[q])
      && (s.activeZoom.None? ==>
            && r.keyListeners == s.keyListeners + {p}
            && r.pending == s.pending + multiset{Frame(p)})
      && (s.activeZoom.Some? ==>
            var a := s.activeZoom.value;
            && (a in s.pairs ==> r.pairs[a] == s.pairs[a].(active := false))
            && r.keyListeners == s.keyListeners - {a} + {p}
            && r.pending == s.pending + multiset{RemovePair(a)} + multiset{Frame(p)})
  {
    var c := Close(s);
    var p := c.nextPair;
    c.(activeZoom := Some(p),
       pairs := c.pairs[p := NewPair(src, o)],
       keyListeners := c.keyListeners + {p},
       pending := c.pending + multiset{Frame(p)},
       nextPair := p + 1)
  }

  /** A pending timer fires; one that is not pending does nothing. */
  function FireTimer(s: Page, t: Timer): (r: Page)
    ensures t !in s.pending ==> r == s
    ensures r.activeZoom == s.activeZoom && r.keyListeners == s.keyListeners && r.nextPair == s.nextPair
    ensures t in s.pending && t.RemovePair? ==> t.pair !in r.pairs
    ensures t in s.pending && t.Frame? && t.pair in s.pairs ==> t.pair in r.pairs && r.pairs[t.pair].active
    ensures t in s.pending ==> r.pending == s.pending - multiset{t}
    ensures t in s.pending && t.RemovePair? ==> r.pairs == s.pairs - {t.pair}
    ensures t in s.pending && t.Frame? ==>
      && r.pairs.Keys == s.pairs.Keys
      && (forall q :: q in s.pairs && q != t.pair ==> r.pairs[q] == s.pairs[q])
      && (t.pair in s.pairs ==> r.pairs[t.pair] == s.pairs[t.pair].(active := true))
  {
    if t !in s.pending then s
    else
      var s0 := s.(pending := s.pending - multiset{t});
      match t
      case Frame(p) =>
        s0.(pairs := if p in s0.pairs then s0.pairs[p := s0.pairs[p].(active := true)] else s0.pairs)
      case RemovePair(p) => s0.(pairs := s0.pairs - {p})
  }

  /** One event under the given options. */
  function Step(s: Page, o: Options, e: Event): Page
    requires FreshIds(s)
  {
    match e
    case ClickImage(src) => Open(s, src, o)
    case DocumentKey(key) => if key == "Escape" && s.keyListeners != {} then Close(s) else s
    case ClickPair(p) => if p in s.pairs then Close(s) else s
    case Navigate => Close(s)
    case Fire(t) => FireTimer(s, t)
  }

  /** The pair id every timer refers to. */
  function TimerPair(t: Timer): PairId {
    match t
    case Frame(p) => p
    case RemovePair(p) => p
  }

  /**
   * The session invariant: fresh ids; the session's pair is in the document
   * and not scheduled for removal; exactly the session's `escHandler` is
   * registered; and every pair in the document is the session's or awaits
   * its removal timer.
   */
  predicate Inv(s: Page) {
    && FreshIds(s)
    && (forall t :: t in s.pending ==> TimerPair(t) < s.nextPair)
    && (s.activeZoom.Some? ==> s.activeZoom.value in s.pairs && RemovePair(s.activeZoom.value) !in s.pending)
    && s.keyListeners == (if s.activeZoom.Some? then {s.activeZoom.value} else {})
    && (forall q :: q in s.pairs ==> s.activeZoom == Some(q) || RemovePair(q) in s.pending)
  }

  /** Closing keeps the invariant. */
  lemma CloseInv(s: Page)
    requires Inv(s)
    ensures Inv(Close(s))
  {
  }

  /** Opening keeps the invariant. */
  lemma OpenInv(s: Page, src: string, o: Options)
    requires Inv(s)
    ensures Inv(Open(s, src, o))
  {
    CloseInv(s);
    var c := Close(s);
    var p := c.nextPair;
    assert RemovePair(p) !in c.pending;
    var r := Open(s, src, o);
    assert r.pending == c.pending + multiset{Frame(p)};
    assert forall q :: q in r.pairs && q != p ==> RemovePair(q) in c.pending;
  }

  /** A timer firing keeps the invariant. */
  lemma FireInv(s: Page, t: Timer)
    requires Inv(s)
    ensures Inv(FireTimer(s, t))
  {
    if t in s.pending {
      var r := FireTimer(s, t);
      var rest := s.pending - multiset{t};
      assert r.pending == rest;
      assert forall u :: u in s.pending && u != t ==> u in rest;
      assert forall u :: u in rest ==> u in s.pending;
      match t
      case Frame(p) =>
        assert r.pairs.Keys == s.pairs.Keys;
      case RemovePair(p) =>
        assert r.pairs == s.pairs - {p};
        assert s.activeZoom != Some(p);
    }
  }

  /** Every event keeps the invariant. */
  lemma StepInv(s: Page, o: Options, e: Event)
    requires Inv(s)
    ensures Inv(Step(s, o, e))
  {
    match e
    case ClickImage(src) => OpenInv(s, src, o);
    case DocumentKey(key) => CloseInv(s);
    case ClickPair(p) => CloseInv(s);
    case Navigate => CloseInv(s);
    case Fire(t) => FireInv(s, t);
  }

  /** A run of events under fixed options. */
  function Run(s: Page, o: Options, es: seq<Event>): (r: Page)
    requires Inv(s)
    ensures Inv(r)
    decreases |es|
  {
    if es == [] then s
    else
      StepInv(s, o, es[0]);
      Run(Step(s, o, es[0]), o, es[1..])
  }

  /**
   * With a session open, the Escape key and a click on the overlay or the
   * zoomed image have the same effect: `closeZoom`.
   */
  lemma EscapeAndClickAgree(s: Page, o: Options)
    requires Inv(s) && s.activeZoom.Some?
    ensures Step(s, o, DocumentKey("Escape")) == Close(s)
    ensures Step(s, o, ClickPair(s.activeZoom.value)) == Close(s)
    ensures Close(s).activeZoom.None? && Close(s).keyListeners == {}
  {
  }

  /** A second `closeZoom` right after the first does nothing. */
  lemma CloseIdempotent(s: Page)
    ensures Close(Close(s)) == Close(s)
  {
  }

  /**
   * Without a transition flag a close can come before the opening frame:
   * the frame then marks the already-closed pair `active` again, and it
   * stays so until its removal timer fires.
   */
  lemma FrameAfterCloseReactivates(s: Page, o: Options, src: string)
    requires Inv(s) && s.activeZoom.None? && s.pending == multiset{}
    ensures var p := s.nextPair;
      var s1 := Step(s, o, ClickImage(src));
      var s2 := Step(s1, o, DocumentKey("Escape"));
      var s3 := Step(s2, o, Fire(Frame(p)));
      && s3.activeZoom.None? && p in s3.pairs && s3.pairs[p].active
      && RemovePair(p) in s3.pending
  {
    var p := s.nextPair;
    var s1 := Step(s, o, ClickImage(src));
    assert s1.pending == multiset{Frame(p)};
    var s2 := Step(s1, o, DocumentKey("Escape"));
    assert s2.pending == multiset{Frame(p), RemovePair(p)};
    var s3 := Step(s2, o, Fire(Frame(p)));
    assert s3.pending == multiset{RemovePair(p)};
  }
}

=== FILE: wrappers.dfy ===
/** The optional-value datatype used for absent DOM properties and empty session slots. */
module Wrappers {

  /** `None` plays the part of JavaScript's `null`/`undefined`. */
  datatype Option<+T> = None | Some(value: T)
}

=== FILE: zoom_session.dfy ===
/**
 * The zoom session of the current runtime (`openZoom`, `closeZoom` and
 * their handlers in src/client/index.js) as a functional state machine.
 * The page holds the overlay/zoomed-image pairs currently in the document,
 * the body's `overflow: hidden` lock and the registered `keydown` handlers;
 * the runtime holds `activeZoom` and `isTransitioning`. Deferred work (the
 * animation-frame callback and the two 300 ms timers) is a multiset of
 * pending timers that may fire in any order.
 */
module ZoomSession {
  import opened Wrappers

  type PairId = nat

  /**
   * What `openZoom` reads from the clicked image: `src` and `srcset` (the
   * empty string when absent), `alt`, and `data-zoom-src` (`None` when absent).
   */
  datatype ImageAttrs = ImageAttrs(src: string, srcset: string, alt: string, zoomSrc: Option<string>)

  /**
   * One overlay and its zoomed image: the zoomed image's `src`, `srcset` and
   * `alt`, and whether both carry the `active` class (they are toggled together).
   */
  datatype Pair = Pair(src: string, srcset: string, alt: string, active: bool)

  /** A deferred callback: the animation frame of a pair, the end of the opening transition, or the removal of a pair. */
  datatype Timer = Frame(pair: PairId) | TransitionDone | RemovePair(pair: PairId)

  datatype Page = Page(
    activeZoom: Option<PairId>,
    isTransitioning: bool,
    pairs: map<PairId, Pair>,
    overflowHidden: bool,
    keyListeners: set<PairId>,
    pending: multiset<Timer>,
    nextPair: PairId)

  /** What can happen to the page. */
  datatype Event =
    | ActivateImage(img: ImageAttrs)
    | WrapperKey(key: string, img: ImageAttrs)
    | DocumentKey(key: string)
    | ClickPair(pair: PairId)
    | Navigate
    | Fire(timer: Timer)

  /** The page at load time: no session, nothing pending. */
  const Initial: Page := Page(None, false, map[], false, {}, multiset{}, 0)

  /** `img.dataset.zoomSrc || img.src`. */
  function ZoomSource(img: ImageAttrs): string {
    if img.zoomSrc.Some? && img.zoomSrc.value != "" then img.zoomSrc.value else img.src
  }

  /** The pair `openZoom` builds for an image; it is not yet `active`. */
  function ZoomedPair(img: ImageAttrs): (r: Pair)
    ensures (exists z :: img.zoomSrc == Some(z) && z != "") ==> r.src == img.zoomSrc.value
    ensures img.zoomSrc == None || img.zoomSrc == Some("") ==> r.src == img.src
    ensures r.srcset == img.srcset
    ensures img.alt != "" ==> r.alt == img.alt
    ensures img.alt == "" ==> r.alt == "Zoomed image"
    ensures !r.active
  {
    Pair(ZoomSource(img), img.srcset, if img.alt != "" then img.alt else "Zoomed image", false)
  }

  /** Every pair id in use is below `nextPair`, the id the next `openZoom` takes. */
  predicate FreshIds(s: Page) {
    && (forall q :: q in s.pairs ==> q < s.nextPair)
    && (s.activeZoom.Some? ==> s.activeZoom.value < s.nextPair)
  }

  /**
   * `closeZoom`: a no-op with no session or while transitioning; otherwise
   * it ends the session at once and defers removing its elements.
   */
  function Close(s: Page): (r: Page)
    ensures s.activeZoom.None? || s.isTransitioning ==> r == s
    ensures s.activeZoom.Some? && !s.isTransitioning ==>
      var a := s.activeZoom.value;
      && r.activeZoom.None? && r.isTransitioning && !r.overflowHidden
      && r.keyListeners == s.keyListeners - {a}
      && r.pending == s.pending + multiset{RemovePair(a)}
      && r.pairs.Keys == s.pairs.Keys
      && (a in s.pairs ==> r.pairs[a] == s.pairs[a].(active := false))
      && (forall q :: q in s.pairs && q != a ==> r.pairs[q] == s.pairs[q])
      && r.nextPair == s.nextPair
  {
    if s.activeZoom.None? || s.isTransitioning then s
    else
      var a := s.activeZoom.value;
      s.(activeZoom := None,
         isTransitioning := true,
         pairs := if a in s.pairs then s.pairs[a := s.pairs[a].(active := false)] else s.pairs,
         overflowHidden := false,
         keyListeners := s.keyListeners - {a},
         pending := s.pending + multiset{RemovePair(a)})
  }

  /**
   * `openZoom`: dropped while transitioning; otherwise it closes the current
   * session, appends a fresh pair for the image, makes it the session,
   * starts the transition, locks scrolling, schedules the animation frame
   * and registers the `keydown` handler.
   */
  function Open(s: Page, img: ImageAttrs): (r: Page)
    ensures s.isTransitioning ==> r == s
    ensures !s.isTransitioning ==>
      && r.activeZoom.Some? && r.activeZoom.value !in s.pairs
      && r.isTransitioning && r.overflowHidden
      && r.activeZoom.value in r.pairs && r.pairs[r.activeZoom.value] == ZoomedPair(img)
      && Frame(r.activeZoom.value) in r.pending
      && r.activeZoom.value in r.keyListeners
      && s.pairs.Keys + {r.activeZoom.value} == r.pairs.Keys
      && (s.activeZoom.Some? ==>
            RemovePair(s.activeZoom.value) in r.pending && s.activeZoom.value !in r.keyListeners)
    ensures !s.isTransitioning ==>
      var p := s.nextPair;
      && r.activeZoom == Some(p) && r.nextPair == p + 1
      && (forall q :: q in s.pairs && Some(q) != s.activeZoom ==> r.pairs[q] == s.pairs[q])
      && (s.activeZoom.None? ==>
            && r.keyListeners == s.keyListeners + {p}
            && r.pending == s.pending + multiset{Frame(p)})
      && (s.activeZoom.Some? ==>
            var a := s.activeZoom.value;
            && (a in s.pairs ==> r.pairs[a] == s.pairs[a].(active := false))
            && r.keyListeners == s.keyListeners - {a} + {p}
            && r.pending == s.pending + multiset{RemovePair(a)} + multiset{Frame(p)})
    requires FreshIds(s)
  {
    if s.isTransitioning then s
    else
      var c := Close(s);
      var p := c.nextPair;
      c.(activeZoom := Some(p),
         isTransitioning := true,
         pairs := c.pairs[p := ZoomedPair(img)],
         overflowHidden := true,
         keyListeners := c.keyListeners + {p},
         pending := c.pending + multiset{Frame(p)},
         nextPair := p + 1)
  }

  /** A pending timer fires; a timer that is not pending does nothing. */
  function FireTimer(s: Page, t: Timer): (r: Page)
    ensures t !in s.pending ==> r == s
    ensures t in s.pending && !t.Frame? ==> r.pending == s.pending - multiset{t}
    ensures t in s.pending && t.Frame? ==> r.pending == s.pending - multiset{t} + multiset{TransitionDone}
    ensures t in s.pending && t.RemovePair? ==> r.pairs == s.pairs - {t.pair}
    ensures t in s.pending && t == TransitionDone ==> r.pairs == s.pairs
    ensures t in s.pending && t.Frame? ==>
      && r.pairs.Keys == s.pairs.Keys
      && (forall q :: q in s.pairs && q != t.pair ==> r.pairs[q] == s.pairs[q])
      && (t.pair in s.pairs ==> r.pairs[t.pair] == s.pairs[t.pair].(active := true))
      && r.isTransitioning == s.isTransitioning
    ensures r.activeZoom == s.activeZoom && r.keyListeners == s.keyListeners
    ensures r.overflowHidden == s.overflowHidden && r.nextPair == s.nextPair
    ensures t in s.pending && t.RemovePair? ==> t.pair !in r.pairs && !r.isTransitioning
    ensures t in s.pending && t == TransitionDone ==> !r.isTransitioning
    ensures t in s.pending && t.Frame? && t.pair in s.pairs ==> t.pair in r.pairs && r.pairs[t.pair].active && TransitionDone in r.pending
  {
    if t !in s.pending then s
    else
      var s0 := s.(pending := s.pending - multiset{t});
      match t
      case Frame(p) =>
        s0.(pairs := if p in s0.pairs then s0.pairs[p := s0.pairs[p].(active := true)] else s0.pairs,
            pending := s0.pending + multiset{TransitionDone})
      case TransitionDone => s0.(isTransitioning := false)
      case RemovePair(p) => s0.(pairs := s0.pairs - {p}, isTransitioning := false)
  }

  /** The `keydown` listeners on the document: every registered handler runs `closeZoom` on Escape. */
  function DocumentKeyDown(s: Page, key: string): Page {
    if key == "Escape" && s.keyListeners != {} then Close(s) else s
  }

  /** One event. */
  function Step(s: Page, e: Event): Page
    requires FreshIds(s)
  {
    match e
    case ActivateImage(img) => if !s.isTransitioning then Open(s, img) else s
    case WrapperKey(key, img) =>
      if key == "Enter" || key == " " then (if !s.isTransitioning then Open(s, img) else s)
      else DocumentKeyDown(s, key)
    case DocumentKey(key) => DocumentKeyDown(s, key)
    case ClickPair(p) => if p in s.pairs && !s.isTransitioning then Close(s) else s
    case Navigate => Close(s)
    case Fire(t) => FireTimer(s, t)
  }

  /** The pair id a timer refers to, if any. */
  function TimerPair(t: Timer): Option<PairId> {
    match t
    case Frame(p) => Some(p)
    case TransitionDone => None
    case RemovePair(p) => Some(p)
  }

  /**
   * The session invariant: ids are allocated fresh; the session's pair is in
   * the document and not scheduled for removal; exactly the session's
   * `keydown` handler is registered; scrolling is locked exactly while a
   * session is open; and every pair in the document is the session's or
   * awaits its removal timer, so none is leaked.
   */
  predicate Inv(s: Page) {
    && FreshIds(s)
    && (forall t :: t in s.pending && TimerPair(t).Some? ==> TimerPair(t).value < s.nextPair)
    && (s.activeZoom.Some? ==> s.activeZoom.value in s.pairs && RemovePair(s.activeZoom.value) !in s.pending)
    && s.keyListeners == (if s.activeZoom.Some? then {s.activeZoom.value} else {})
    && (s.overflowHidden <==> s.activeZoom.Some?)
    && (forall q :: q in s.pairs ==> s.activeZoom == Some(q) || RemovePair(q) in s.pending)
  }

  lemma InitialInv()
    ensures Inv(Initial)
  {
  }

  /** Closing keeps the invariant. */
  lemma CloseInv(s: Page)
    requires Inv(s)
    ensures Inv(Close(s))
  {
  }

  /** Opening keeps the invariant. */
  lemma OpenInv(s: Page, img: ImageAttrs)
    requires Inv(s)
    ensures Inv(Open(s, img))
  {
    if !s.isTransitioning {
      CloseInv(s);
      StartInv(Close(s), ZoomedPair(img));
    }
  }

  /** Starting a session on a fresh pair from a page with no session keeps the invariant. */
  lemma StartInv(c: Page, pr: Pair)
    requires Inv(c) && c.activeZoom.None?
    ensures var p := c.nextPair;
      Inv(c.(activeZoom := Some(p), isTransitioning := true, pairs := c.pairs[p := pr],
             overflowHidden := true, keyListeners := c.keyListeners + {p},
             pending := c.pending + multiset{Frame(p)}, nextPair := p + 1))
  {
    var p := c.nextPair;
    var r := c.(activeZoom := Some(p), isTransitioning := true, pairs := c.pairs[p := pr],
                overflowHidden := true, keyListeners := c.keyListeners + {p},
                pending := c.pending + multiset{Frame(p)}, nextPair := p + 1);
    assert RemovePair(p) !in c.pending;
    forall t | t in r.pending && TimerPair(t).Some?
      ensures TimerPair(t).value < r.nextPair
    {
      if t != Frame(p) {
        assert t in c.pending;
      }
    }
    forall q | q in r.pairs
      ensures r.activeZoom == Some(q) || RemovePair(q) in r.pending
    {
      if q != p {
        assert RemovePair(q) in c.pending;
      }
    }
  }

  /** Removing one timer from the pending multiset keeps every other timer. */
  lemma RemoveOne(m: multiset<Timer>, t: Timer)
    requires t in m
    ensures forall u :: u in m && u != t ==> u in m - multiset{t}
    ensures forall u :: u in m - multiset{t} ==> u in m
  {
  }

  /** The animation frame keeps the invariant. */
  lemma FireFrameInv(s: Page, p: PairId)
    requires Inv(s) && Frame(p) in s.pending
    ensures Inv(FireTimer(s, Frame(p)))
  {
    var r := FireTimer(s, Frame(p));
    var rest := s.pending - multiset{Frame(p)};
    RemoveOne(s.pending, Frame(p));
    assert r.pending == rest + multiset{TransitionDone};
    assert r.pairs.Keys == s.pairs.Keys;
    forall q | q in r.pairs
      ensures r.activeZoom == Some(q) || RemovePair(q) in r.pending
    {
      if r.activeZoom != Some(q) {
        assert RemovePair(q) in s.pending;
      }
    }
  }

  /** The end of the opening transition keeps the invariant. */
  lemma FireDoneInv(s: Page)
    requires Inv(s) && TransitionDone in s.pending
    ensures Inv(FireTimer(s, TransitionDone))
  {
    var r := FireTimer(s, TransitionDone);
    RemoveOne(s.pending, TransitionDone);
    assert r.pairs == s.pairs;
    assert r.pending == s.pending - multiset{TransitionDone};
  }

  /** The removal timer keeps the invariant. */
  lemma FireRemoveInv(s: Page, p: PairId)
    requires Inv(s) && RemovePair(p) in s.pending
    ensures Inv(FireTimer(s, RemovePair(p)))
  {
    var r := FireTimer(s, RemovePair(p));
    RemoveOne(s.pending, RemovePair(p));
    assert r.pending == s.pending - multiset{RemovePair(p)};
    assert r.pairs == s.pairs - {p};
    assert s.activeZoom != Some(p);
  }

  /** A timer firing keeps the invariant. */
  lemma FireInv(s: Page, t: Timer)
    requires Inv(s)
    ensures Inv(FireTimer(s, t))
  {
    if t in s.pending {
      match t
      case Frame(p) => FireFrameInv(s, p);
      case TransitionDone => FireDoneInv(s);
      case RemovePair(p) => FireRemoveInv(s, p);
    }
  }

  /** The document's `keydown` listeners keep the invariant. */
  lemma KeyDownInv(s: Page, key: string)
    requires Inv(s)
    ensures Inv(DocumentKeyDown(s, key))
  {
    CloseInv(s);
  }

  /** Every event keeps the invariant. */
  lemma StepInv(s: Page, e: Event)
    requires Inv(s)
    ensures Inv(Step(s, e))
  {
    match e
    case ActivateImage(img) => OpenInv(s, img);
    case WrapperKey(key, img) =>
      if key == "Enter" || key == " " {
        OpenInv(s, img);
      } else {
        KeyDownInv(s, key);
      }
    case DocumentKey(key) => KeyDownInv(s, key);
    case ClickPair(p) => CloseInv(s);
    case Navigate => CloseInv(s);
    case Fire(t) => FireInv(s, t);
  }

  /** A run of events from a page satisfying the invariant. */
  function Run(s: Page, es: seq<Event>): (r: Page)
    requires Inv(s)
    ensures Inv(r)
    decreases |es|
  {
    if es == [] then s
    else
      StepInv(s, es[0]);
      Run(Step(s, es[0]), es[1..])
  }

  /** A second `closeZoom` right after the first does nothing. */
  lemma CloseIdempotent(s: Page)
    ensures Close(Close(s)) == Close(s)
  {
  }

  /**
   * While a transition runs, every dismissal (Escape, a click on the
   * overlay or zoomed image, navigation) and every activation is dropped.
   */
  lemma TransitionSwallowsEvents(s: Page, e: Event)
    requires Inv(s) && s.isTransitioning && !e.Fire?
    ensures Step(s, e) == s
  {
  }

  /** Rapid double activation: the second activation inside the opening window is dropped. */
  lemma DoubleActivationOpensOnce(s: Page, img1: ImageAttrs, img2: ImageAttrs)
    requires Inv(s) && !s.isTransitioning
    ensures var s1 := Step(s, ActivateImage(img1));
      && Inv(s1)
      && Step(s1, ActivateImage(img2)) == s1
      && s1.activeZoom.Some? && s1.pairs[s1.activeZoom.value] == ZoomedPair(img1)
  {
    OpenInv(s, img1);
  }

  /** No session, nothing in the document, nothing scheduled. */
  predicate Idle(s: Page) {
    && s.activeZoom.None? && !s.isTransitioning && !s.overflowHidden
    && s.pairs == map[] && s.keyListeners == {} && s.pending == multiset{}
  }

  /**
   * Open, then the animation frame and the transition timer, then Escape,
   * then the removal timer: the page is idle again, scrolling unlocked and
   * no handler left registered, and in between the pair was `active`.
   */
  lemma OpenEscapeRoundTrip(s: Page, img: ImageAttrs)
    requires Inv(s) && Idle(s)
    ensures var p := s.nextPair;
      var s1 := Step(s, ActivateImage(img));
      var s2 := Step(s1, Fire(Frame(p)));
      var s3 := Step(s2, Fire(TransitionDone));
      var s4 := Step(s3, DocumentKey("Escape"));
      var s5 := Step(s4, Fire(RemovePair(p)));
      && p in s3.pairs && s3.pairs[p].active && s3.overflowHidden && !s3.isTransitioning
      && s4.activeZoom.None? && !s4.overflowHidden && p in s4.pairs
      && Idle(s5)
  {
    var p := s.nextPair;
    var s1 := Step(s, ActivateImage(img));
    assert s1.pending == multiset{Frame(p)};
    var s2 := Step(s1, Fire(Frame(p)));
    assert s2.pending == multiset{TransitionDone};
    var s3 := Step(s2, Fire(TransitionDone));
    assert s3.pending == multiset{};
    var s4 := Step(s3, DocumentKey("Escape"));
    assert s4.pending == multiset{RemovePair(p)};
    var s5 := Step(s4, Fire(RemovePair(p)));
    assert s5.pending == multiset{};
  }

  /**
   * Two pairs coexist: activating another image (by keyboard, say) while a
   * session is open closes the first one, whose elements stay until their
   * removal timer fires, and appends the second.
   */
  lemma OldAndNewPairsCoexist(s: Page, img1: ImageAttrs, img2: ImageAttrs)
    requires Inv(s) && Idle(s)
    ensures var p := s.nextPair;
      var s1 := Step(s, ActivateImage(img1));
      var s2 := Step(s1, Fire(Frame(p)));
      var s3 := Step(s2, Fire(TransitionDone));
      var s4 := Step(s3, WrapperKey("Enter", img2));
      && s4.pairs.Keys == {p, p + 1}
      && s4.activeZoom == Some(p + 1)
      && RemovePair(p) in s4.pending
  {
    var p := s.nextPair;
    var s1 := Step(s, ActivateImage(img1));
    assert s1.pending == multiset{Frame(p)};
    var s2 := Step(s1, Fire(Frame(p)));
    assert s2.pending == multiset{TransitionDone};
    var s3 := Step(s2, Fire(TransitionDone));
    assert s3.pairs.Keys == {p};
  }

  /**
   * The old pair's removal timer clears `isTransitioning` although the new
   * pair's transition timer is still pending: in the usual order (the new
   * frame first, then the old removal) an Escape is accepted while the new
   * session is still in its opening transition.
   */
  lemma RemovalTimerEndsNewOpening(s: Page, img: ImageAttrs)
    requires Inv(s) && s.activeZoom.Some? && !s.isTransitioning && s.pending == multiset{}
    ensures var a := s.activeZoom.value;
      var p := s.nextPair;
      var s1 := Step(s, WrapperKey("Enter", img));
      var s2 := Step(s1, Fire(Frame(p)));
      var s3 := Step(s2, Fire(RemovePair(a)));
      var s4 := Step(s3, DocumentKey("Escape"));
      && s2.isTransitioning && s2.activeZoom == Some(p)
      && !s3.isTransitioning && TransitionDone in s3.pending && s3.activeZoom == Some(p)
      && s4.activeZoom.None? && RemovePair(p) in s4.pending && TransitionDone in s4.pending
  {
    var a := s.activeZoom.value;
    var p := s.nextPair;
    var s1 := Step(s, WrapperKey("Enter", img));
    assert s1.pending == multiset{RemovePair(a), Frame(p)};
    OpenInv(s, img);
    var s2 := Step(s1, Fire(Frame(p)));
    assert s2.pending == multiset{RemovePair(a), TransitionDone};
    FireInv(s1, Frame(p));
    var s3 := Step(s2, Fire(RemovePair(a)));
    assert s3.pending == multiset{TransitionDone};
    FireInv(s2, RemovePair(a));
    assert s3.keyListeners == {p};
  }
}
